=== FILE: README.md ===
# Salary-prediction dashboard — a verified model of its decision logic

The repository is a small employee salary-prediction web app. A browser script
(`static/script.js`) draws three bar/line charts, reads an employee form, posts it to a
Flask endpoint (`app.py`, route `/predict`), shows a high/low income verdict and animates
at most one cell of each chart towards a placeholder salary (75000 for a high-income
verdict, 45000 otherwise); the department chart changes only when the occupation matches
one of its labels. This project models the decision logic of both sides in Dafny:

- **Age bucketing** (`AgeBands`): the `updateAgeSalary` if/else chain, a total partition of
  the integers into eight ordered bands with boundaries 26, 31, 36, 41, 46, 51, 56.
- **Education mapping** (`EducationLevels`): the case-sensitive substring chain of
  `updateEducationSalary` (HS/High, Some, Bach, Master, Doc, default "Bachelor").
- **Department lookup** (`Departments`): the first label whose lowercased text contains the
  lowercased occupation, or -1.
- **Value animator** (`Animator`): `animateValue` as a tick-driven state machine. Values move
  one unit per tick, and the timer is cleared when `current === end`.
- **Charts** (`Charts`): the three charts and the single-cell write the animation callback
  performs on every tick.
- **Form** (`Form`): reading the fields (`parseInt(...) || 0` for the numeric ones) and the
  required-field filter with its "Please fill in: " message.
- **Backend** (`Backend`): the `/predict` guard, the KeyError on a missing input key, the
  categorical encoding, the `educational-num` table with its default 9, and the rule that
  every exception becomes a 400 whose body has only the key `error`.
- **Dashboard** (`Dashboard`): the submit handler end to end, plus facts that tie the page
  to the backend.

Supporting modules: `Base` (Option/Result, `Min`, `Abs`) and `Text` (JavaScript `includes`,
`toLowerCase`, `indexOf`, `join`).

Behaviour the model reproduces as written:

- When the animation's start equals its target, the increment is -1, so `current` never
  equals `end` and the timer never stops (`Animator.Stalled`). This happens on a fresh page:
  band "20-25" starts at 45000, and a low-income verdict for anyone under 26 targets 45000
  (`Dashboard.FreshPageYoungLowIncomeNeverSettles`). Any second identical submission after
  an animation has settled hits the same case (`Charts.RepeatedUpdateStalls`).
- The backend reports failures under the key `error`, but the page reads `message`, so
  every backend failure is shown as "Prediction service unavailable"
  (`Dashboard.BackendErrorsLookGeneric`).
- Of the fourteen occupations the backend knows, only "Sales" matches a department label
  (`Dashboard.OnlySalesMatchesADepartment`).
- Eleven of the sixteen known educations, "Prof-school" and "Preschool" among them, fall
  through to "Bachelor" (`Dashboard.KnownEducationLevels`).
- Once the encoders reject unseen labels, the `educational-num` default 9 can never be used
  (`Backend.DefaultUnreachable`).

Two further behaviours of the code:

- A missing DOM element aborts the submission for any of the eleven fields, not only the
  five required ones (static/script.js:140-160).
- With start equal to end, the timer does not stop at once: it counts down forever.

## Model

| member | source | states |
|---|---|---|
| AgeBands.AgeGroup | static/script.js:241-249 | every integer age, including zero, negative and above 60, gets one of the eight age-chart labels |
| AgeBands.AgeIndex | static/script.js:251 | `indexOf` of the chosen band never returns -1, and the label at that position is the only one equal to the band |
| AgeBands.AgeIndexByCase | static/script.js:242-251 | the position found for each of the eight age ranges, one per band |
| AgeBands.AgeIndexIsBand | static/script.js:242-249 | an age lies in band i (at or above its lower boundary, below the next one) exactly when the chain selects band i, so the bands partition the integers |
| AgeBands.AgeIndexMonotone | static/script.js:242-249 | an older age never falls into a younger band |
| AgeBands.BoundariesAreExact | static/script.js:242-249 | each of 26, 31, 36, 41, 46, 51, 56 opens the next band and the age just below it closes the previous one |
| AgeBands.AgeExamples | static/script.js:242-249 | 25 is in "20-25", 26 in "26-30", 55 in "51-55", 56 in "56-60", and ages 0, -5 and 90 land in the end bands |
| EducationLevels.EducationLevel | static/script.js:261-267 | the chosen level is always one of the five education-chart labels |
| EducationLevels.FirstFiringRuleDecides | static/script.js:262-266 | when the first rule whose pattern occurs is rule i of the priority table HS/High, Some, Bach, Master, Doc, the level is rule i's level |
| EducationLevels.NoRuleFiresGivesDefault | static/script.js:262-267 | with no pattern present the level is "Bachelor"; a "Bachelor" result means neither HS/High nor Some occurred |
| EducationLevels.FallsThrough | static/script.js:262-267 | a value without the letters H, S, B, M, D gets the default "Bachelor" |
| EducationLevels.EducationExamples | static/script.js:262-267 | "Masters" maps to "Master", "Some-college" to "Some College", and "Prof-school" and "Unknown-value" fall back to "Bachelor" |
| Text.Includes | static/script.js:228 | the empty string is included in every string, and no string includes a longer one |
| Text.IncludesIffOccurs | static/script.js:228 | `includes` holds exactly when the pattern occurs at some position of the string |
| Text.Lower | static/script.js:228 | lowercasing keeps the length, turns each letter A-Z into its lower-case partner (code point + 32), and leaves every other character as it was |
| Text.LowerIdempotent | static/script.js:228 | lowercasing an already lowercased string changes nothing |
| Text.Join | static/script.js:167 | the joined text starts with the first name and is exactly as long as the names plus one separator between each pair of neighbours; no names give the empty string |
| Text.JoinLayout | static/script.js:167 | piece i of the joined text sits at its offset (the earlier pieces, each followed by one separator), exactly one separator follows every piece but the last, and the next piece starts right after it |
| Text.IndexOf | static/script.js:251 | `indexOf` returns -1 exactly when the label is absent, and otherwise the first position holding it |
| Departments.Matches | static/script.js:227-228 | the `findIndex` test: an empty occupation matches every label, and a match is never longer than its label |
| Departments.MatchesIgnoresCase | static/script.js:228 | because both sides are lowercased, lowercasing the label or the occupation beforehand never changes the outcome |
| Departments.FindFrom | static/script.js:227-229 | the search from a position returns the first matching label at or after it, or -1 when none matches |
| Departments.FindDepartment | static/script.js:227-229 | the result is the first label whose lowercased text contains the lowercased occupation; -1 exactly when no label matches |
| Departments.TooLongMatchesNothing | static/script.js:227-229 | an occupation longer than every label matches none, so no update happens |
| Departments.SalesExamples | static/script.js:227-229 | on the department chart, "Sales", "sales" and "SALES" all select the Sales column (index 3), because case is ignored on both sides |
| Animator.Increment | static/script.js:282 | the increment is +1 exactly when end is above start, and -1 otherwise, including when they are equal |
| Animator.Start | static/script.js:280-282 | a fresh timer runs from start with the increment; it heads toward the target exactly when start differs from end, and otherwise steps away from it |
| Animator.Tick | static/script.js:284-290 | a tick moves one unit and clears the timer exactly on reaching the target; heading toward the target it shortens the distance by one and keeps heading there until it arrives; heading away it never clears and lengthens the distance by one |
| Animator.After | static/script.js:284-290 | after n due ticks the target and increment are unchanged; a cleared timer never moves again; a timer still running has moved n increments, and one that cleared stands on its target |
| Animator.Emitted | static/script.js:284-290 | the callback receives at most one value per due tick, none once the timer is cleared, exactly n while it keeps running, and the i-th value is i+1 increments from the start |
| Animator.Approach | static/script.js:284-290 | a timer heading for its target emits one value per tick, each one unit further, and is cleared exactly on the tick that reaches the target |
| Animator.Recede | static/script.js:284-290 | a timer moving away from its target is never cleared and never emits the target |
| Animator.Ascending | static/script.js:279-290 | for start < end the callback receives start+1 … end: exactly end-start strictly increasing values ending at end, then the timer stops |
| Animator.Descending | static/script.js:279-290 | for start > end the callback receives start-1 … end: exactly start-end strictly decreasing values, then the timer stops |
| Animator.Stalled | static/script.js:280-290 | for start == end the timer never stops: after n ticks current is start-n and no emitted value equals end |
| Animator.FinishesIffDistinct | static/script.js:282-290 | the timer is eventually cleared exactly when start differs from end, after abs(end-start) ticks, with current equal to end |
| Animator.LastEmittedIsCurrent | static/script.js:285-286 | the last value passed to the callback is the timer's current value; with none passed the timer is untouched |
| Animator.RunTimer | static/script.js:279-290 | driving the timer for a tick budget stops within it exactly when start differs from end and the budget covers the distance; the values are start moved by 1 … k steps |
| Charts.Write | static/script.js:234 | the callback stores the value in its cell and changes no label and no other cell |
| Charts.Replay | static/script.js:233-235 | after the callback has run for a series of values, the cell holds the last value (or is unchanged when there was none), and no label or other cell changed |
| Charts.ReplayKeepsLast | static/script.js:233-235 | after the callback has run for a series of values, the cell holds the last one and no other cell or label changed |
| Charts.Animate | static/script.js:253-255 | an animated cell shows where its timer stands after the given ticks, and no label or other cell changed |
| Charts.AnimateShowsTimer | static/script.js:253-255 | an animating cell always shows where its timer stands |
| Charts.Update | static/script.js:231-236 | labels never change; a lookup miss leaves the chart identical; otherwise only the found cell changes and it shows the timer's value |
| Charts.UpdateSettles | static/script.js:233-235 | when the cell differs from the salary, the cell equals the salary after abs(salary - start) ticks and the timer is cleared |
| Charts.UpdateStalls | static/script.js:279-290 | when the cell already holds the salary, after n ticks it shows salary-n and the timer is still running |
| Charts.UpdateDepartment | static/script.js:226-238 | only the first department whose label matches the occupation changes, and it shows its animation toward the salary; with no match the chart is unchanged |
| Charts.UpdateAge | static/script.js:240-258 | only the first cell labelled with the age's band changes, and it shows its animation toward the salary; a chart without that label is unchanged |
| Charts.UpdateEducation | static/script.js:260-276 | only the first cell labelled with the education level changes, and it shows its animation toward the salary; a chart without that label is unchanged |
| Charts.AgeChartAlwaysUpdates | static/script.js:251-257 | on the dashboard's age chart every age finds its band, and the band's cell reaches the salary |
| Charts.YoungLowIncomeNeverSettles | static/script.js:53-56 | on the initial age chart, band "20-25" holds 45000, so a 45000 target for an age under 26 never stops animating |
| Charts.RepeatedUpdateStalls | static/script.js:279-290 | once an update has settled on the salary, repeating the same update never settles |
| Form.Falsy | static/script.js:164 | `!value` holds for exactly the number 0 and the empty string |
| Form.NumberOrZero | static/script.js:149 | `parseInt(...) \|\| 0` is 0 exactly when the text does not parse or parses to 0, and otherwise the parsed number |
| Form.FieldOf | static/script.js:149-159 | exactly the four numeric fields hold numbers: the parsed value, or 0 when the text does not parse, so they are falsy exactly when the text does not parse or parses to 0; the others hold the element text unchanged, falsy exactly when it is empty |
| Form.CollectFrom | static/script.js:140-160 | reading the fields in order fails exactly when some element is absent, with "Missing field: " and the first absent id; otherwise every field is read |
| Form.Collect | static/script.js:148-160 | the record is built exactly when all eleven elements exist, and each field holds what its element reads; otherwise the error is "Missing field: " with the first absent id |
| Form.FalsyKeys | static/script.js:164 | the filter keeps exactly the keys whose value is 0 or the empty string, in their original order |
| Form.FalsyKeysCounts | static/script.js:164 | like `filter`, the result keeps every occurrence of a falsy key and none of a truthy one |
| Form.MissingFields | static/script.js:163-164 | the missing list holds exactly the falsy required fields, in the order age, workclass, education, occupation, hours-per-week |
| Form.Validate | static/script.js:166-168 | validation passes exactly when no required field is falsy; otherwise the message is "Please fill in: " with the names joined by ", " |
| Form.Submit | static/script.js:140-168 | a record is sent exactly when all elements exist and every required field is truthy, and it holds exactly the values read; otherwise the message names the first absent element, or lists the falsy required fields after "Please fill in: " |
| Form.UnparsableNumberIsMissing | static/script.js:159-166 | a required numeric field that does not parse or parses to 0 is reported missing and aborts the submission |
| Form.AllBlankMessage | static/script.js:163-167 | with all required fields blank, the message lists all five names in order |
| Backend.EducationalNum | app.py:104 | `educational-num` is always in 1..16: a known name gets its table value and anything else gets the default 9 |
| Backend.EducationNumIsRank | app.py:97-102 | the 16 known names get their rank 1..16 in schooling order, from Preschool up to Doctorate, and the table knows no other names |
| Backend.KnownNamesGetRank | app.py:97-104 | the `.get` lookup gives each known education name its rank in schooling order, 1 for Preschool up to 16 for Doctorate |
| Backend.DefaultIsHighSchool | app.py:104 | a name not in the table gets 9, the value of "HS-grad" |
| Backend.EducationKeysAreCategories | app.py:28-30 | the table's keys are exactly the classes the education encoder is fitted on |
| Backend.Truthy | app.py:68 | `not data` holds for exactly None, False, 0, the empty string, the empty list and the empty object |
| Backend.FirstAbsent | app.py:72-85 | reports the first input key missing from the body, or none when all are present |
| Backend.EncodeColumns | app.py:90-92 | on success every categorical value is replaced by its code; otherwise the result is the error of the first column whose encoder raises, all earlier columns having encoded |
| Backend.BuildRow | app.py:72-104 | the row holds the eleven input keys plus `educational-num`: the categorical columns hold their codes, the other inputs the body's values, and `educational-num` comes from the education value |
| Backend.ModelInput | app.py:65-104 | a falsy body gives "No data received", a truthy non-object body the TypeError text of subscripting it, and a body missing an input key the KeyError text `'key'` of the first one; a row reaching the model has all input keys, each categorical column holding its encoder's code for the body's label, the other inputs as sent, and the table's `educational-num` |
| Backend.Predict | app.py:60-127 | a falsy body yields "No data received"; every failure before or inside the model becomes an error response carrying that failure's text; a model that answers gives that verdict |
| Backend.Status | app.py:120-127 | a response is a 400 exactly when it is an error; a verdict is a 2xx success |
| Backend.ErrorJson | app.py:127 | the error body has the single key "error", holding the failure text, and no "message" key |
| Backend.EmptyBodyRefused | app.py:68-69 | a falsy body gets 400 "No data received" whatever the library objects do, so no field is read |
| Backend.MissingKeyReported | app.py:72-85 | a body missing an input key fails with the KeyError text of the first missing key |
| Backend.EncoderErrorReported | app.py:90-92 | a body with every input key whose label an encoder rejects fails with that encoder's text, from the first rejecting column, both before the model and as the 400 response |
| Backend.EncodableBodyReachesModel | app.py:72-123 | a truthy object with every input key and labels every encoder accepts reaches the model as the built row, and the response is the classifier's verdict or its error |
| Backend.KnownLabelsOnly | app.py:89-92 | with encoders fitted on the category lists, a body reaching the model has only known category labels |
| Backend.DefaultUnreachable | app.py:96-104 | with those encoders the `educational-num` always comes from the table and never from the default |
| Dashboard.FailureText | static/script.js:181 | a non-empty `message` string is shown as it is; anything else (no key, "", null, 0, false, another value) yields "Prediction service unavailable" |
| Dashboard.HandleReply | static/script.js:179-187 | a network failure shows its reason, and a verdict shows high income exactly when prediction > 0.5 |
| Dashboard.BackendErrorsLookGeneric | static/script.js:179-181 | every failed backend request is shown as "Prediction service unavailable", never the backend's error text |
| Dashboard.TargetSalary | static/script.js:214-216 | the placeholder salary is 75000 or 45000, and lies above $50K exactly for a high-income verdict |
| Dashboard.ApplyResult | static/script.js:214-216 | after a verdict, each chart keeps its labels and changes only the first cell of the occupation, age band or education level, which shows its animation toward the verdict's salary |
| Dashboard.SubmitForm | static/script.js:129-223 | a validation error is shown and leaves the page unchanged; any error view leaves the charts unchanged; a valid form shows the handled reply, and a verdict applies the three chart updates |
| Dashboard.PredictedReplyUpdatesCharts | static/script.js:184-216 | a valid form answered with a prediction shows high income exactly when it exceeds 0.5, and animates the charts toward the matching salary |
| Dashboard.InvalidFormSendsNothing | static/script.js:166-171 | a submission that fails validation does not depend on the network at all, so no request is made |
| Dashboard.FalsyIffNotTruthy | static/script.js:164 | a form value is falsy for the page exactly when its JSON is falsy for Python's truthiness test |
| Dashboard.FieldJson | static/script.js:176 | `JSON.stringify` keeps a number as the same number and a text as the same string, and the value is truthy in Python exactly when it is truthy in JavaScript |
| Dashboard.ToJson | static/script.js:176 | the JSON body carries exactly the record's keys, each holding its value's JSON |
| Dashboard.FormBodyHasEveryKey | app.py:68-85 | the page sends exactly the keys the handler reads, so a form body never meets the empty-body guard or a KeyError |
| Dashboard.OnlySalesMatchesADepartment | static/script.js:227-229 | of the fourteen known occupations only "Sales" selects a department; the others leave the chart unchanged |
| Dashboard.KnownEducationLevels | static/script.js:262-267 | of the sixteen known educations, five reach their own level and the other eleven fall through to "Bachelor" |
| Dashboard.UnmatchedFallThrough | static/script.js:267 | "11th", "Prof-school", "Assoc-acdm" and the other pattern-free educations get "Bachelor" |
| Dashboard.FreshPageYoungLowIncomeNeverSettles | static/script.js:215 | on a fresh page a low-income verdict for an age under 26 leaves the age chart's first cell counting down forever |

## Left out

- Chart construction, options, tooltip and axis formatting (`toLocaleString`) and the
  `chart.update()` redraws. These belong to the charting library. Each chart has one
  dataset, so a chart is modelled as its labels plus that dataset's numbers.
- DOM access, `innerHTML` markup, the loading spinner, and the `fetch`/`await` call with its
  JSON parsing. These are I/O. The network round trip is a function parameter of
  `Dashboard.SubmitForm`, and its failures are `Dashboard.Delivery.NetworkFailure`.
- `setInterval` timing and the `stepTime` value (`Math.abs(Math.floor(duration / range))`),
  including its division by zero when start equals end. Time is counted in ticks.
- Interleaving of several animations on the same cell, and overlapping form submissions.
  These come from event-loop concurrency. Each chart's timer is ticked independently
  (`Dashboard.Ticks`).
- The confidence text `(probability * 100).toFixed(1)` and the probability value, which are
  floating point.
- `parseInt` internals (whitespace, sign and radix-prefix rules). `parseInt` is a parameter
  returning an optional integer, with `NaN` as absent.
- Text.Lower: folds only the ASCII letters A-Z, where JavaScript's `toLowerCase` also
  folds non-ASCII letters.
- `Math.round` in the animation callbacks. The animated values are integers, so it leaves
  them unchanged.
- pandas DataFrame construction, the fitted LabelEncoders, the scaler, the classifier,
  joblib loading and Flask routing. These are library code. The encoder and the
  scaler-plus-classifier are parameters (`Backend.Library`), and so is the text of the
  TypeError Python raises when a non-object body is indexed. The integer codes the
  encoders produce are whatever that parameter returns.
- `request.get_json()` raising on a wrong content type or malformed JSON. JSON numbers are
  integers only; floats are not modelled.
- Backend.EducationalNum: gives 9 for a list or object value, where Python's `dict.get`
  would raise TypeError for an unhashable key. With encoders that reject non-string labels,
  this case never reaches the lookup.
- Dashboard.FailureText: a truthy `message` that is not a string would be converted to text
  by `new Error(...)`; here it falls back to the generic text. The backend never sends
  `message`, so this difference cannot be observed.
- The debug `print` calls in app.py and `console.error` in static/script.js. Logging has no
  effect on the responses or the page, so it is not modelled.
- The training script `salary_prediction.py` (dataset loading, training, metrics and
  plots). It is not part of this model.

=== FILE: age_bands.dfy ===
/** The age bucketing of `updateAgeSalary` in static/script.js. */
module AgeBands {
  import opened Text

  /** The x-axis labels of the age chart, youngest band first. */
  const AgeLabels: seq<string> := ["20-25", "26-30", "31-35", "36-40", "41-45", "46-50", "51-55", "56-60"]

  /** The first age of each band after the first one. */
  const Boundaries: seq<int> := [26, 31, 36, 41, 46, 51, 56]

  /** The if/else chain choosing the band label; there is no lower or upper cut-off. */
  function AgeGroup(age: int): (group: string)
    ensures group in AgeLabels
  {
    if age < 26 then "20-25"
    else if age < 31 then "26-30"
    else if age < 36 then "31-35"
    else if age < 41 then "36-40"
    else if age < 46 then "41-45"
    else if age < 51 then "46-50"
    else if age < 56 then "51-55"
    else "56-60"
  }

  /** Reference definition of band `i`: at or above its lower boundary and below the next one. */
  predicate InBand(age: int, i: int)
    requires 0 <= i < |AgeLabels|
  {
    (i == 0 || Boundaries[i - 1] <= age) && (i == |AgeLabels| - 1 || age < Boundaries[i])
  }

  /** `chart.data.labels.indexOf(ageGroup)` on the age chart: never -1, and the unique label of the band. */
  function AgeIndex(age: int): (i: int)
    ensures 0 <= i < |AgeLabels|
    ensures AgeLabels[i] == AgeGroup(age)
    ensures forall j :: 0 <= j < |AgeLabels| && AgeLabels[j] == AgeGroup(age) ==> j == i
  {
    IndexOf(AgeLabels, AgeGroup(age))
  }

  /** The position the chain's label has in the label list, one case per band. */
  lemma AgeIndexByCase(age: int)
    ensures age < 26 ==> AgeIndex(age) == 0
    ensures 26 <= age < 31 ==> AgeIndex(age) == 1
    ensures 31 <= age < 36 ==> AgeIndex(age) == 2
    ensures 36 <= age < 41 ==> AgeIndex(age) == 3
    ensures 41 <= age < 46 ==> AgeIndex(age) == 4
    ensures 46 <= age < 51 ==> AgeIndex(age) == 5
    ensures 51 <= age < 56 ==> AgeIndex(age) == 6
    ensures 56 <= age ==> AgeIndex(age) == 7
  {
    var i := AgeIndex(age);
    assert AgeLabels[i] == AgeGroup(age);
  }

  /** The bands partition the integers: every age lies in exactly the band the chain selects. */
  lemma AgeIndexIsBand(age: int, i: int)
    requires 0 <= i < |AgeLabels|
    ensures InBand(age, i) <==> i == AgeIndex(age)
  {
    AgeIndexByCase(age);
  }

  /** Older never means a younger band. */
  lemma AgeIndexMonotone(a: int, b: int)
    requires a <= b
    ensures AgeIndex(a) <= AgeIndex(b)
  {
    AgeIndexByCase(a);
    AgeIndexByCase(b);
  }

  /** The band changes exactly at each boundary: the boundary age opens band k+1, the age before it closes band k. */
  lemma BoundariesAreExact(k: int)
    requires 0 <= k < |Boundaries|
    ensures AgeIndex(Boundaries[k]) == k + 1
    ensures AgeIndex(Boundaries[k] - 1) == k
  {
    AgeIndexIsBand(Boundaries[k], k + 1);
    AgeIndexIsBand(Boundaries[k] - 1, k);
  }

  /** Examples: both sides of two boundaries, and the open ends of the partition. */
  lemma AgeExamples()
    ensures AgeGroup(25) == "20-25" && AgeGroup(26) == "26-30"
    ensures AgeGroup(55) == "51-55" && AgeGroup(56) == "56-60"
    ensures AgeGroup(0) == "20-25" && AgeGroup(-5) == "20-25" && AgeGroup(90) == "56-60"
  {
  }
}

=== FILE: animator.dfy ===
/**
 * The value animator `animateValue(start, end, duration, callback)` of static/script.js,
 * as a state machine driven by timer ticks. The millisecond interval between ticks is
 * not modelled; only the order and values of the ticks are.
 */
module Animator {
  import opened Base

  /** The state kept by one animation's repeating timer. */
  datatype Animation = Animation(current: int, target: int, step: int, running: bool)

  /** `increment`: +1 when the target lies above the start, otherwise -1 (also when they are equal). */
  function Increment(start: int, end: int): (step: int)
    ensures step == 1 || step == -1
    ensures step == 1 <==> start < end
  {
    if end > start then 1 else -1
  }

  /** Where `current` stands after `k` increments of `step` from `x`, ignoring the stop test. */
  function Move(x: int, k: nat, step: int): int {
    if step == 1 then x + k else x - k
  }

  /** The timer just after `animateValue` has set it up, before any tick. */
  function Start(start: int, end: int): (a: Animation)
    ensures a.running && a.current == start && a.target == end
    ensures a.step == Increment(start, end)
    ensures start != end ==> Toward(a)
    ensures start == end ==> Away(a)
  {
    Animation(start, end, Increment(start, end), true)
  }

  /** One tick: advance by the increment, hand the value to the callback, clear the timer when it equals the target. */
  function Tick(a: Animation): (b: Animation)
    requires a.running
    ensures b.target == a.target && b.step == a.step
    ensures b.current == a.current + a.step
    ensures b.running <==> b.current != a.target
    ensures Toward(a) ==> Abs(b.target - b.current) == Abs(a.target - a.current) - 1
    ensures Toward(a) && b.running ==> Toward(b)
    ensures Away(a) ==> b.running && Away(b) && Abs(b.target - b.current) == Abs(a.target - a.current) + 1
  {
    var next := a.current + a.step;
    Animation(next, a.target, a.step, next != a.target)
  }

  /** The timer's state after `n` more ticks were due; a cleared timer stays as it is. */
  function After(a: Animation, n: nat): (r: Animation)
    ensures r.target == a.target && r.step == a.step
    ensures !a.running ==> r == a
    ensures a.running && r.running && (a.step == 1 || a.step == -1) ==> r.current == Move(a.current, n, a.step)
    ensures a.running && !r.running ==> r.current == r.target
    decreases n
  {
    if n == 0 || !a.running then a else After(Tick(a), n - 1)
  }

  /** The values handed to the callback during the next `n` due ticks, in order. */
  function Emitted(a: Animation, n: nat): (e: seq<int>)
    ensures |e| <= n
    ensures !a.running ==> e == []
    ensures a.running && After(a, n).running ==> |e| == n
    ensures a.step == 1 || a.step == -1 ==> forall i :: 0 <= i < |e| ==> e[i] == Move(a.current, i + 1, a.step)
    decreases n
  {
    if n == 0 || !a.running then [] else [Tick(a).current] + Emitted(Tick(a), n - 1)
  }

  /** The timer moves toward its target. */
  predicate Toward(a: Animation) {
    (a.step == 1 && a.current < a.target) || (a.step == -1 && a.current > a.target)
  }

  /** The timer moves away from its target (or starts on it and steps off). */
  predicate Away(a: Animation) {
    (a.step == 1 && a.current >= a.target) || (a.step == -1 && a.current <= a.target)
  }

  /**
   * A timer heading for its target emits one value per tick, each one step further,
   * and clears itself exactly on the tick that reaches the target.
   */
  lemma {:induction false} Approach(a: Animation, n: nat)
    requires a.running && Toward(a)
    ensures var d := Abs(a.target - a.current);
      && After(a, n).current == Move(a.current, Min(n, d), a.step)
      && (After(a, n).running <==> n < d)
      && |Emitted(a, n)| == Min(n, d)
      && forall i :: 0 <= i < |Emitted(a, n)| ==> Emitted(a, n)[i] == Move(a.current, i + 1, a.step)
    decreases n
  {
    if n > 0 {
      var b := Tick(a);
      if b.running {
        Approach(b, n - 1);
        var e := Emitted(a, n);
        assert e == [b.current] + Emitted(b, n - 1);
        forall i | 0 <= i < |e|
          ensures e[i] == Move(a.current, i + 1, a.step)
        {
          if i > 0 {
            assert e[i] == Emitted(b, n - 1)[i - 1];
          }
        }
      } else {
        assert Emitted(b, n - 1) == [];
      }
    }
  }

  /** A timer moving away from its target never clears: every due tick emits, and no value equals the target. */
  lemma {:induction false} Recede(a: Animation, n: nat)
    requires a.running && Away(a)
    ensures After(a, n) == a.(current := Move(a.current, n, a.step))
    ensures |Emitted(a, n)| == n
    ensures forall i :: 0 <= i < n ==> Emitted(a, n)[i] == Move(a.current, i + 1, a.step)
    ensures forall i :: 0 <= i < n ==> Emitted(a, n)[i] != a.target
    decreases n
  {
    if n > 0 {
      var b := Tick(a);
      assert b.running && Away(b);
      Recede(b, n - 1);
      var e := Emitted(a, n);
      assert e == [b.current] + Emitted(b, n - 1);
      forall i | 0 <= i < n
        ensures e[i] == Move(a.current, i + 1, a.step) && e[i] != a.target
      {
        if i > 0 {
          assert e[i] == Emitted(b, n - 1)[i - 1];
        }
      }
    }
  }

  /**
   * For start < end the callback receives start+1, ..., end: exactly end-start strictly
   * increasing values, the last one equal to end, after which the timer is cleared.
   */
  lemma Ascending(start: int, end: int, n: nat)
    requires start < end
    ensures var e := Emitted(Start(start, end), n);
      && |e| == Min(n, end - start)
      && (forall i :: 0 <= i < |e| ==> e[i] == start + i + 1)
      && (forall i, j :: 0 <= i < j < |e| ==> e[i] < e[j])
      && (n >= end - start ==> e[end - start - 1] == end)
    ensures After(Start(start, end), n).running <==> n < end - start
  {
    Approach(Start(start, end), n);
  }

  /** For start > end the callback receives start-1, ..., end: exactly start-end strictly decreasing values. */
  lemma Descending(start: int, end: int, n: nat)
    requires start > end
    ensures var e := Emitted(Start(start, end), n);
      && |e| == Min(n, start - end)
      && (forall i :: 0 <= i < |e| ==> e[i] == start - i - 1)
      && (forall i, j :: 0 <= i < j < |e| ==> e[i] > e[j])
      && (n >= start - end ==> e[start - end - 1] == end)
    ensures After(Start(start, end), n).running <==> n < start - end
  {
    Approach(Start(start, end), n);
  }

  /**
   * For start == end the increment is -1, so after n ticks current is start-n: the timer
   * is never cleared and the callback never receives the target.
   */
  lemma Stalled(start: int, n: nat)
    ensures After(Start(start, start), n).running
    ensures After(Start(start, start), n).current == start - n
    ensures |Emitted(Start(start, start), n)| == n
    ensures forall i :: 0 <= i < n ==> Emitted(Start(start, start), n)[i] == start - i - 1
  {
    Recede(Start(start, start), n);
  }

  /** The timer is eventually cleared exactly when start and end differ; it takes |end - start| ticks. */
  lemma FinishesIffDistinct(start: int, end: int)
    ensures (exists n: nat :: !After(Start(start, end), n).running) <==> start != end
    ensures start != end ==> !After(Start(start, end), Abs(end - start)).running
    ensures start != end ==> After(Start(start, end), Abs(end - start)).current == end
  {
    if start == end {
      forall n: nat
        ensures After(Start(start, end), n).running
      {
        Stalled(start, n);
      }
    } else {
      Approach(Start(start, end), Abs(end - start));
    }
  }

  /** The last value handed to the callback is where the timer stands; with no value emitted it has not moved. */
  lemma {:induction false} LastEmittedIsCurrent(a: Animation, n: nat)
    ensures |Emitted(a, n)| == 0 ==> After(a, n) == a
    ensures |Emitted(a, n)| > 0 ==> Emitted(a, n)[|Emitted(a, n)| - 1] == After(a, n).current
    decreases n
  {
    if n > 0 && a.running {
      LastEmittedIsCurrent(Tick(a), n - 1);
    }
  }

  /**
   * Drives one animation's timer for at most `budget` ticks and collects the callback values;
   * `stopped` reports whether the timer cleared itself within the budget.
   */
  method RunTimer(start: int, end: int, budget: nat) returns (values: seq<int>, stopped: bool)
    ensures stopped <==> start != end && budget >= Abs(end - start)
    ensures |values| == (if stopped then Abs(end - start) else budget)
    ensures forall i :: 0 <= i < |values| ==> values[i] == Move(start, i + 1, Increment(start, end))
    ensures stopped ==> values[|values| - 1] == end
  {
    var a := Start(start, end);
    var step := a.step;
    values := [];
    var k := 0;
    while k < budget && a.running
      invariant 0 <= k <= budget
      invariant a.target == end && a.step == step
      invariant |values| == k
      invariant forall i :: 0 <= i < k ==> values[i] == Move(start, i + 1, step)
      invariant a.current == Move(start, k, step)
      invariant a.running <==> start == end || k < Abs(end - start)
      invariant !a.running ==> k > 0 && values[k - 1] == end
    {
      a := Tick(a);
      values := values + [a.current];
      k := k + 1;
    }
    stopped := !a.running;
  }
}

=== FILE: backend.dfy ===
/**
 * The `/predict` handler of app.py: the request guard, the reading of the input fields,
 * the categorical encoding, the `educational-num` lookup and the error-to-400 rule.
 * The fitted LabelEncoders, the scaler and the classifier are library objects; they enter
 * as the parameters bundled in `Library`.
 */
module Backend {
  import opened Base

  /** A JSON value as `request.get_json()` returns it; numbers are integers here. */
  datatype Json = JNull | JBool(b: bool) | JNum(n: int) | JStr(s: string) | JArr(items: seq<Json>) | JObj(fields: map<string, Json>)

  /**
   * Python truthiness of the decoded body, the test behind `if not data`: a scalar is true
   * unless it is zero or False, a container unless it is empty. The false values are then
   * exactly Python's falsy constants None, False, 0, '', [] and {}.
   */
  predicate Truthy(j: Json): (t: bool)
    ensures !t <==> j in {JNull, JBool(false), JNum(0), JStr(""), JArr([]), JObj(map[])}
  {
    match j
    case JNull => false
    case JBool(b) => b
    case JNum(n) => n != 0
    case JStr(s) => s != ""
    case JArr(items) => |items| > 0
    case JObj(fields) => |fields| > 0
  }

  /** The columns handed to a LabelEncoder, in encoding order. */
  const CategoricalColumns: seq<string> := ["workclass", "education", "marital-status", "occupation",
    "relationship", "race", "gender"]

  /** The classes each LabelEncoder is fitted on. */
  const CategoryTable: map<string, seq<string>> := map[
    "workclass" := ["Private", "Self-emp-not-inc", "Self-emp-inc", "Federal-gov", "Local-gov", "State-gov"],
    "education" := ["Bachelors", "Some-college", "11th", "HS-grad", "Prof-school", "Assoc-acdm", "Assoc-voc",
      "9th", "7th-8th", "12th", "Masters", "1st-4th", "10th", "Doctorate", "5th-6th", "Preschool"],
    "marital-status" := ["Married-civ-spouse", "Divorced", "Never-married", "Separated", "Widowed",
      "Married-spouse-absent", "Married-AF-spouse"],
    "occupation" := ["Tech-support", "Craft-repair", "Other-service", "Sales", "Exec-managerial",
      "Prof-specialty", "Handlers-cleaners", "Machine-op-inspct", "Adm-clerical", "Farming-fishing",
      "Transport-moving", "Priv-house-serv", "Protective-serv", "Armed-Forces"],
    "relationship" := ["Wife", "Own-child", "Husband", "Not-in-family", "Other-relative", "Unmarried"],
    "race" := ["White", "Asian-Pac-Islander", "Amer-Indian-Eskimo", "Other", "Black"],
    "gender" := ["Male", "Female"]
  ]

  /** The keys read from the body into the DataFrame row, in reading order. */
  const InputKeys: seq<string> := ["age", "workclass", "education", "marital-status", "occupation",
    "relationship", "race", "gender", "capital-gain", "capital-loss", "hours-per-week"]

  /** The column the handler computes itself. */
  const EducationNumKey: string := "educational-num"

  /** `education_mapping`: each education name to its position in the schooling order. */
  const EducationNum: map<string, int> := map[
    "Preschool" := 1, "1st-4th" := 2, "5th-6th" := 3, "7th-8th" := 4,
    "9th" := 5, "10th" := 6, "11th" := 7, "12th" := 8, "HS-grad" := 9,
    "Some-college" := 10, "Assoc-voc" := 11, "Assoc-acdm" := 12,
    "Bachelors" := 13, "Masters" := 14, "Prof-school" := 15, "Doctorate" := 16
  ]

  /** The fallback of `education_mapping.get(..., 9)`. */
  const DefaultEducationNum: int := 9

  /** `education_mapping.get(education, 9)`; a value that is not a known name gets the default. */
  function EducationalNum(education: Json): (n: int)
    ensures 1 <= n <= 16
    ensures education.JStr? && education.s in EducationNum ==> n == EducationNum[education.s]
    ensures !(education.JStr? && education.s in EducationNum) ==> n == DefaultEducationNum
  {
    if education.JStr? && education.s in EducationNum then EducationNum[education.s] else DefaultEducationNum
  }

  /** The schooling order, lowest first: an independent listing of the table's intent. */
  const SchoolingOrder: seq<string> := ["Preschool", "1st-4th", "5th-6th", "7th-8th", "9th", "10th", "11th",
    "12th", "HS-grad", "Some-college", "Assoc-voc", "Assoc-acdm", "Bachelors", "Masters", "Prof-school", "Doctorate"]

  /** The table gives each name its 1-based rank in the schooling order, and knows no other names. */
  lemma EducationNumIsRank()
    ensures forall i :: 0 <= i < |SchoolingOrder| ==> SchoolingOrder[i] in EducationNum && EducationNum[SchoolingOrder[i]] == i + 1
    ensures forall e :: e in EducationNum <==> e in SchoolingOrder
  {
  }

  /** A known education name, read as a JSON string, gets its rank in the schooling order. */
  lemma KnownNamesGetRank()
    ensures forall i :: 0 <= i < |SchoolingOrder| ==> EducationalNum(JStr(SchoolingOrder[i])) == i + 1
  {
    EducationNumIsRank();
  }

  /** Every name the table does not know gets the rank of "HS-grad". */
  lemma DefaultIsHighSchool(education: Json)
    requires !(education.JStr? && education.s in EducationNum)
    ensures EducationalNum(education) == EducationNum["HS-grad"]
  {
  }

  /** The table's key set is exactly the class list the education encoder is fitted on. */
  lemma EducationKeysAreCategories()
    ensures "education" in CategoryTable
    ensures forall e :: e in EducationNum <==> e in CategoryTable["education"]
  {
    var classes := CategoryTable["education"];
    forall e | e in classes
      ensures e in EducationNum
    {
    }
    forall e | e in EducationNum
      ensures e in classes
    {
      assert e in SchoolingOrder;
    }
  }

  /** The library objects the handler calls; each may raise, and `Err` carries `str(e)`. */
  datatype Library = Library(
    subscriptError: Json -> string,              // str(e) of the TypeError for `data['age']` on a non-object body
    encode: (string, Json) -> Result<int>,       // `label_encoders[col].transform`
    classify: map<string, Json> -> Result<int>)  // `scaler.transform`, `model.predict` and `model.predict_proba`

  /** An encoder that accepts only the string classes it was fitted on, as LabelEncoder does. */
  ghost predicate FittedEncoder(lib: Library) {
    forall col, v :: lib.encode(col, v).Ok? ==> col in CategoryTable && v.JStr? && v.s in CategoryTable[col]
  }

  /** The first of `keys` missing from the body, which is where `data[key]` raises KeyError. */
  function FirstAbsent(keys: seq<string>, fields: map<string, Json>): (r: Option<nat>)
    ensures r.None? <==> forall k :: k in keys ==> k in fields
    ensures r.Some? ==> (r.value < |keys| && keys[r.value] !in fields
      && forall j :: 0 <= j < r.value ==> keys[j] in fields)
  {
    if |keys| == 0 then None
    else if keys[0] !in fields then Some(0)
    else
      var rest := FirstAbsent(keys[1..], fields);
      if rest.None? then
        assert forall k :: k in keys ==> k == keys[0] || k in keys[1..];
        None
      else
        Some(rest.value + 1)
  }

  /** The encoding loop: each column's code replaces its value; the first encoder that raises ends the request. */
  function EncodeColumns(cols: seq<string>, fields: map<string, Json>, encode: (string, Json) -> Result<int>): (r: Result<map<string, Json>>)
    requires forall c :: c in cols ==> c in fields
    ensures r.Ok? ==> forall c :: c in r.value <==> c in cols
    ensures r.Ok? ==> forall c :: c in cols ==> encode(c, fields[c]).Ok? && r.value[c] == JNum(encode(c, fields[c]).value)
    ensures r.Err? ==> exists i :: (0 <= i < |cols| && encode(cols[i], fields[cols[i]]).Err?
      && (forall j :: 0 <= j < i ==> encode(cols[j], fields[cols[j]]).Ok?)
      && r.message == encode(cols[i], fields[cols[i]]).message)
  {
    if |cols| == 0 then Ok(map[])
    else
      var first := encode(cols[0], fields[cols[0]]);
      if first.Err? then Err(first.message)
      else
        var rest := EncodeColumns(cols[1..], fields, encode);
        if rest.Err? then
          var i :| 0 <= i < |cols[1..]| && encode(cols[1..][i], fields[cols[1..][i]]).Err?
            && (forall j :: 0 <= j < i ==> encode(cols[1..][j], fields[cols[1..][j]]).Ok?)
            && rest.message == encode(cols[1..][i], fields[cols[1..][i]]).message;
          assert cols[1..][i] == cols[i + 1];
          assert forall j :: 0 < j < i + 1 ==> cols[j] == cols[1..][j - 1];
          Err(rest.message)
        else
          Ok(rest.value[cols[0] := JNum(first.value)])
  }

  /** The DataFrame row: the input fields, the categorical codes in place of their labels, and `educational-num`. */
  function BuildRow(fields: map<string, Json>, codes: map<string, Json>): (row: map<string, Json>)
    requires forall k :: k in InputKeys ==> k in fields
    requires forall c :: c in CategoricalColumns ==> c in codes
    ensures forall k :: k in row <==> k in InputKeys || k == EducationNumKey
    ensures row[EducationNumKey] == JNum(EducationalNum(fields["education"]))
    ensures forall c :: c in CategoricalColumns ==> c in row && row[c] == codes[c]
    ensures forall k :: k in InputKeys && k !in CategoricalColumns ==> row[k] == fields[k]
  {
    map k | k in InputKeys + [EducationNumKey] ::
      if k == EducationNumKey then JNum(EducationalNum(fields["education"]))
      else if k in CategoricalColumns then codes[k]
      else fields[k]
  }

  /** Every categorical column is one of the input keys. */
  lemma CategoricalAreInputs()
    ensures forall c :: c in CategoricalColumns ==> c in InputKeys
  {
    forall c | c in CategoricalColumns
      ensures c in InputKeys
    {
      assert c in InputKeys[1..8] by { assert InputKeys[1..8] == CategoricalColumns; }
    }
  }

  /** The encoding loop run over the categorical columns of a body that has every input key. */
  function Encoded(fields: map<string, Json>, lib: Library): (r: Result<map<string, Json>>)
    requires forall k :: k in InputKeys ==> k in fields
    ensures forall c :: c in CategoricalColumns ==> c in fields
  {
    CategoricalAreInputs();
    EncodeColumns(CategoricalColumns, fields, lib.encode)
  }

  /** Everything up to the model call: the row the scaler and classifier receive, or the error text. */
  function ModelInput(data: Json, lib: Library): (r: Result<map<string, Json>>)
    ensures !Truthy(data) ==> r == Err("No data received")
    ensures Truthy(data) && !data.JObj? ==> r == Err(lib.subscriptError(data))
    ensures Truthy(data) && data.JObj? && FirstAbsent(InputKeys, data.fields).Some? ==>
      r == Err("'" + InputKeys[FirstAbsent(InputKeys, data.fields).value] + "'")
    ensures r.Ok? ==> data.JObj? && forall k :: k in InputKeys ==> k in data.fields
    ensures r.Ok? ==> forall k :: k in r.value <==> k in InputKeys || k == EducationNumKey
    ensures r.Ok? ==> forall c :: c in CategoricalColumns ==> lib.encode(c, data.fields[c]).Ok?
    ensures r.Ok? ==> r.value[EducationNumKey] == JNum(EducationalNum(data.fields["education"]))
    ensures r.Ok? ==> forall c :: c in CategoricalColumns ==>
      c in data.fields && c in r.value && r.value[c] == JNum(lib.encode(c, data.fields[c]).value)
    ensures r.Ok? ==> forall k :: k in InputKeys && k !in CategoricalColumns ==> r.value[k] == data.fields[k]
  {
    if !Truthy(data) then Err("No data received")
    else if !data.JObj? then Err(lib.subscriptError(data))
    else
      var fields := data.fields;
      var absent := FirstAbsent(InputKeys, fields);
      if absent.Some? then Err("'" + InputKeys[absent.value] + "'")
      else
        var codes := Encoded(fields, lib);
        if codes.Err? then Err(codes.message)
        else Ok(BuildRow(fields, codes.value))
  }

  /** What `predict` returns: an error body with status 400, or the classifier's verdict with status 200. */
  datatype Response = Failed(error: string) | Predicted(prediction: int)

  /** The HTTP status: the errors are exactly the 400s, and a verdict is a 2xx success. */
  function Status(r: Response): (status: int)
    ensures status == 400 <==> r.Failed?
    ensures r.Predicted? ==> 200 <= status <= 299
  {
    if r.Failed? then 400 else 200
  }

  /** The JSON object of an error response, `{'error': str(e)}`: the text under "error" and no "message". */
  function ErrorJson(error: string): (body: map<string, Json>)
    ensures body.Keys == {"error"}
    ensures body["error"] == JStr(error)
    ensures "message" !in body
  {
    map["error" := JStr(error)]
  }

  /** The whole handler: every failure, guarded or raised, becomes a 400 carrying only its text. */
  function Predict(data: Json, lib: Library): (r: Response)
    ensures !Truthy(data) ==> r == Failed("No data received")
    ensures r.Predicted? ==> ModelInput(data, lib).Ok? && lib.classify(ModelInput(data, lib).value) == Ok(r.prediction)
    ensures ModelInput(data, lib).Err? ==> r == Failed(ModelInput(data, lib).message)
    ensures ModelInput(data, lib).Ok? && lib.classify(ModelInput(data, lib).value).Err? ==>
      r == Failed(lib.classify(ModelInput(data, lib).value).message)
    ensures ModelInput(data, lib).Ok? && lib.classify(ModelInput(data, lib).value).Ok? ==>
      r == Predicted(lib.classify(ModelInput(data, lib).value).value)
  {
    match ModelInput(data, lib)
    case Err(message) => Failed(message)
    case Ok(row) =>
      match lib.classify(row)
      case Err(message) => Failed(message)
      case Ok(prediction) => Predicted(prediction)
  }

  /** A falsy body is refused before any field is read: no library object is consulted. */
  lemma EmptyBodyRefused(data: Json, lib1: Library, lib2: Library)
    requires !Truthy(data)
    ensures Predict(data, lib1) == Predict(data, lib2) == Failed("No data received")
    ensures Status(Predict(data, lib1)) == 400
  {
  }

  /** A body missing an input key fails with Python's KeyError text for the first such key. */
  lemma MissingKeyReported(fields: map<string, Json>, lib: Library, i: nat)
    requires |fields| > 0
    requires i < |InputKeys| && InputKeys[i] !in fields
    requires forall j :: 0 <= j < i ==> InputKeys[j] in fields
    ensures Predict(JObj(fields), lib) == Failed("'" + InputKeys[i] + "'")
  {
    var absent := FirstAbsent(InputKeys, fields);
    assert absent == Some(i);
  }

  /** With encoders that refuse unseen labels, a body reaching the model carries only known category labels. */
  lemma KnownLabelsOnly(data: Json, lib: Library)
    requires FittedEncoder(lib)
    requires ModelInput(data, lib).Ok?
    ensures data.JObj?
    ensures forall c :: c in CategoricalColumns ==> c in data.fields && c in CategoryTable
    ensures forall c :: c in CategoricalColumns ==> data.fields[c].JStr? && data.fields[c].s in CategoryTable[c]
  {
    var fields := data.fields;
    forall c | c in CategoricalColumns
      ensures fields[c].JStr? && c in CategoryTable && fields[c].s in CategoryTable[c]
    {
      assert lib.encode(c, fields[c]).Ok?;
    }
  }

  /**
   * With encoders that refuse unseen labels, the `educational-num` of a row reaching the
   * model comes from the table: the default 9 is never used.
   */
  lemma DefaultUnreachable(data: Json, lib: Library)
    requires FittedEncoder(lib)
    requires ModelInput(data, lib).Ok?
    ensures data.JObj? && "education" in data.fields
    ensures data.fields["education"].JStr? && data.fields["education"].s in EducationNum
    ensures ModelInput(data, lib).value[EducationNumKey] == JNum(EducationNum[data.fields["education"].s])
  {
    KnownLabelsOnly(data, lib);
    assert "education" in InputKeys;
    var education := data.fields["education"];
    assert education.JStr? && education.s in CategoryTable["education"] by {
      assert "education" in CategoricalColumns;
    }
    EducationKeysAreCategories();
    assert EducationalNum(education) == EducationNum[education.s];
  }

  /** A body whose label an encoder rejects fails with that encoder's text, from the first rejecting column. */
  lemma EncoderErrorReported(data: Json, lib: Library)
    requires data.JObj? && Truthy(data) && FirstAbsent(InputKeys, data.fields).None?
    requires Encoded(data.fields, lib).Err?
    ensures ModelInput(data, lib) == Err(Encoded(data.fields, lib).message)
    ensures Predict(data, lib) == Failed(Encoded(data.fields, lib).message)
  {
  }

  /** A truthy object with every input key and labels every encoder accepts reaches the model as the built row. */
  lemma EncodableBodyReachesModel(data: Json, lib: Library)
    requires data.JObj? && Truthy(data) && FirstAbsent(InputKeys, data.fields).None?
    requires Encoded(data.fields, lib).Ok?
    ensures ModelInput(data, lib) == Ok(BuildRow(data.fields, Encoded(data.fields, lib).value))
    ensures Predict(data, lib) == match lib.classify(BuildRow(data.fields, Encoded(data.fields, lib).value))
      case Ok(prediction) => Predicted(prediction)
      case Err(message) => Failed(message)
  {
  }
}

=== FILE: base.dfy ===
/** Failure-carrying wrappers shared by the dashboard script model and the backend model. */
module Base {

  /** A value that may be absent: JavaScript's `undefined`/`NaN`, Python's `None`. */
  datatype Option<+T> = None | Some(value: T)

  /** The outcome of a step that may throw; `message` is the thrown error's text. */
  datatype Result<+T> = Ok(value: T) | Err(message: string)

  function Min(a: int, b: int): int { if a <= b then a else b }

  function Abs(x: int): nat { if x < 0 then -x else x }
}

=== FILE: charts.dfy ===
/**
 * The three dashboard charts of static/script.js and the chart-update functions
 * `updateDepartmentSalary`, `updateAgeSalary` and `updateEducationSalary`. Each chart has a
 * single dataset, so a chart is its labels plus that dataset's numbers.
 */
module Charts {
  import opened Base
  import opened Text
  import opened Animator
  import AgeBands
  import EducationLevels
  import Departments

  datatype Chart = Chart(labels: seq<string>, data: seq<int>)

  /** One number per label; the label set never grows or shrinks. */
  predicate WellFormed(c: Chart) {
    |c.labels| == |c.data|
  }

  /** The initial salary-by-department chart. */
  const SalaryChart: Chart := Chart(Departments.DepartmentLabels, [72000, 58000, 68000, 62000, 78000, 52000, 65000])

  /** The initial age-versus-income chart; its youngest band starts at 45000. */
  const AgeChart: Chart := Chart(AgeBands.AgeLabels, [45000, 52000, 62000, 72000, 78000, 82000, 85000, 80000])

  /** The initial education-versus-income chart. */
  const EducationChart: Chart := Chart(EducationLevels.EducationLabels, [42000, 48000, 68000, 82000, 95000])

  /**
   * The animation callback: store the value into the cell and redraw. The values are
   * integers, so `Math.round` leaves them unchanged; the redraw has no modelled effect.
   */
  function Write(c: Chart, index: nat, value: int): (r: Chart)
    requires index < |c.data|
    ensures r.labels == c.labels && |r.data| == |c.data|
    ensures r.data[index] == value
    ensures forall j :: 0 <= j < |c.data| && j != index ==> r.data[j] == c.data[j]
  {
    c.(data := c.data[index := value])
  }

  /** The chart after the callback has run once for each of `values`, in order. */
  function Replay(c: Chart, index: nat, values: seq<int>): (r: Chart)
    requires index < |c.data|
    ensures r.labels == c.labels && |r.data| == |c.data|
    ensures forall j :: 0 <= j < |c.data| && j != index ==> r.data[j] == c.data[j]
    ensures r.data[index] == if |values| == 0 then c.data[index] else values[|values| - 1]
    decreases |values|
  {
    if |values| == 0 then c else Replay(Write(c, index, values[0]), index, values[1..])
  }

  /** Replaying a run of callbacks leaves the last value in the cell and nothing else changed. */
  lemma {:induction false} ReplayKeepsLast(c: Chart, index: nat, values: seq<int>)
    requires index < |c.data|
    ensures |values| == 0 ==> Replay(c, index, values) == c
    ensures |values| > 0 ==> Replay(c, index, values) == Write(c, index, values[|values| - 1])
    decreases |values|
  {
    if |values| > 1 {
      var c' := Write(c, index, values[0]);
      ReplayKeepsLast(c', index, values[1..]);
      assert Write(c', index, values[|values| - 1]) == Write(c, index, values[|values| - 1]);
    }
  }

  /** Cell `index` animating toward `salary`, after `ticks` timer ticks were due. */
  function Animate(c: Chart, index: nat, salary: int, ticks: nat): (r: Chart)
    requires index < |c.data|
    ensures r.labels == c.labels && |r.data| == |c.data|
    ensures forall j :: 0 <= j < |c.data| && j != index ==> r.data[j] == c.data[j]
    ensures r.data[index] == After(Start(c.data[index], salary), ticks).current
  {
    LastEmittedIsCurrent(Start(c.data[index], salary), ticks);
    Replay(c, index, Emitted(Start(c.data[index], salary), ticks))
  }

  /** An animating cell always shows where its timer stands; every other cell and every label is untouched. */
  lemma AnimateShowsTimer(c: Chart, index: nat, salary: int, ticks: nat)
    requires index < |c.data|
    ensures Animate(c, index, salary, ticks) == Write(c, index, After(Start(c.data[index], salary), ticks).current)
  {
    var a := Start(c.data[index], salary);
    ReplayKeepsLast(c, index, Emitted(a, ticks));
    LastEmittedIsCurrent(a, ticks);
    if |Emitted(a, ticks)| == 0 {
      assert c.data[index := c.data[index]] == c.data;
    }
  }

  /**
   * The common shape of the three updaters: `index` is the bucket found (-1 for none);
   * a found bucket animates toward `salary`, and nothing else in the chart changes.
   */
  function Update(c: Chart, index: int, salary: int, ticks: nat): (r: Chart)
    requires WellFormed(c) && -1 <= index < |c.labels|
    ensures r.labels == c.labels && WellFormed(r)
    ensures forall j :: 0 <= j < |c.data| && j != index ==> r.data[j] == c.data[j]
    ensures index == -1 ==> r == c
    ensures index >= 0 ==> r.data[index] == After(Start(c.data[index], salary), ticks).current
  {
    if index == -1 then c
    else
      AnimateShowsTimer(c, index, salary, ticks);
      Animate(c, index, salary, ticks)
  }

  /** An update whose start differs from the salary ends with the cell equal to the salary after |salary - start| ticks. */
  lemma UpdateSettles(c: Chart, index: int, salary: int, ticks: nat)
    requires WellFormed(c) && 0 <= index < |c.labels|
    requires c.data[index] != salary && ticks >= Abs(salary - c.data[index])
    ensures Update(c, index, salary, ticks).data[index] == salary
    ensures !After(Start(c.data[index], salary), ticks).running
  {
    var a := Start(c.data[index], salary);
    Approach(a, ticks);
  }

  /** An update whose cell already holds the salary never settles: after n ticks the cell shows salary - n. */
  lemma UpdateStalls(c: Chart, index: int, salary: int, ticks: nat)
    requires WellFormed(c) && 0 <= index < |c.labels|
    requires c.data[index] == salary
    ensures Update(c, index, salary, ticks).data[index] == salary - ticks
    ensures After(Start(c.data[index], salary), ticks).running
  {
    Stalled(salary, ticks);
  }

  /**
   * `updateDepartmentSalary`: only the first department whose label contains the occupation
   * changes, and it shows its animation's progress.
   */
  function UpdateDepartment(c: Chart, occupation: string, salary: int, ticks: nat): (r: Chart)
    requires WellFormed(c)
    ensures r.labels == c.labels && WellFormed(r)
    ensures (forall i :: 0 <= i < |c.labels| ==> !Departments.Matches(c.labels[i], occupation)) ==> r == c
    ensures var i := Departments.FindDepartment(c.labels, occupation);
      && (forall j :: 0 <= j < |c.data| && j != i ==> r.data[j] == c.data[j])
      && (i >= 0 ==> r.data[i] == After(Start(c.data[i], salary), ticks).current)
  {
    Update(c, Departments.FindDepartment(c.labels, occupation), salary, ticks)
  }

  /** `updateAgeSalary`: only the first cell labelled with the age's band changes, and it shows its animation's progress. */
  function UpdateAge(c: Chart, age: int, salary: int, ticks: nat): (r: Chart)
    requires WellFormed(c)
    ensures r.labels == c.labels && WellFormed(r)
    ensures AgeBands.AgeGroup(age) !in c.labels ==> r == c
    ensures forall j :: 0 <= j < |c.data| && c.labels[j] != AgeBands.AgeGroup(age) ==> r.data[j] == c.data[j]
    ensures var i := IndexOf(c.labels, AgeBands.AgeGroup(age));
      && (forall j :: 0 <= j < |c.data| && j != i ==> r.data[j] == c.data[j])
      && (i >= 0 ==> r.data[i] == After(Start(c.data[i], salary), ticks).current)
  {
    Update(c, IndexOf(c.labels, AgeBands.AgeGroup(age)), salary, ticks)
  }

  /** `updateEducationSalary`: only the first cell labelled with the education level changes, and it shows its animation's progress. */
  function UpdateEducation(c: Chart, education: string, salary: int, ticks: nat): (r: Chart)
    requires WellFormed(c)
    ensures r.labels == c.labels && WellFormed(r)
    ensures EducationLevels.EducationLevel(education) !in c.labels ==> r == c
    ensures forall j :: 0 <= j < |c.data| && c.labels[j] != EducationLevels.EducationLevel(education) ==> r.data[j] == c.data[j]
    ensures var i := IndexOf(c.labels, EducationLevels.EducationLevel(education));
      && (forall j :: 0 <= j < |c.data| && j != i ==> r.data[j] == c.data[j])
      && (i >= 0 ==> r.data[i] == After(Start(c.data[i], salary), ticks).current)
  {
    Update(c, IndexOf(c.labels, EducationLevels.EducationLevel(education)), salary, ticks)
  }

  /** On the dashboard's age chart every age finds its band, and that band's cell ends up at the salary. */
  lemma AgeChartAlwaysUpdates(age: int, salary: int, ticks: nat)
    requires AgeChart.data[AgeBands.AgeIndex(age)] != salary
    requires ticks >= Abs(salary - AgeChart.data[AgeBands.AgeIndex(age)])
    ensures UpdateAge(AgeChart, age, salary, ticks).data[AgeBands.AgeIndex(age)] == salary
  {
    UpdateSettles(AgeChart, AgeBands.AgeIndex(age), salary, ticks);
  }

  /**
   * Reachable non-termination: on the fresh age chart, a low-income result (target 45000)
   * for an age below 26 animates a cell that already holds 45000, so its timer never clears.
   */
  lemma YoungLowIncomeNeverSettles(age: int, ticks: nat)
    requires age < 26
    ensures AgeBands.AgeIndex(age) == 0
    ensures After(Start(AgeChart.data[0], 45000), ticks).running
    ensures UpdateAge(AgeChart, age, 45000, ticks).data[0] == 45000 - ticks
  {
    AgeBands.AgeIndexByCase(age);
    UpdateStalls(AgeChart, 0, 45000, ticks);
  }

  /** Submitting the same result twice: once the first animation has settled, the second one never does. */
  lemma RepeatedUpdateStalls(c: Chart, index: int, salary: int, ticks: nat, more: nat)
    requires WellFormed(c) && 0 <= index < |c.labels|
    requires c.data[index] != salary && ticks >= Abs(salary - c.data[index])
    ensures After(Start(Update(c, index, salary, ticks).data[index], salary), more).running
  {
    UpdateSettles(c, index, salary, ticks);
    Stalled(salary, more);
  }
}

=== FILE: dashboard.dfy ===
/**
 * The submit handler of static/script.js end to end: validation, the reply from `/predict`,
 * the result view and the three chart updates, together with facts that tie the page to
 * the backend it talks to.
 */
module Dashboard {
  import opened Base
  import opened Text
  import opened Form
  import opened Charts
  import Backend
  import Departments
  import EducationLevels
  import AgeBands
  import Animator

  /** What the page gets back from `fetch`: a network or parse failure, or the handler's response. */
  datatype Delivery = NetworkFailure(reason: string) | Delivered(response: Backend.Response)

  /** What the result area shows. */
  datatype View = ShowError(message: string) | ShowResult(highIncome: bool)

  const ServiceUnavailable: string := "Prediction service unavailable"

  /** `errorData.message || 'Prediction service unavailable'`: a non-empty string `message` wins. */
  function FailureText(body: map<string, Backend.Json>): (text: string)
    ensures !("message" in body && body["message"].JStr? && body["message"].s != "") ==> text == ServiceUnavailable
    ensures "message" in body && body["message"].JStr? && body["message"].s != "" ==> text == body["message"].s
  {
    if "message" in body && body["message"].JStr? && body["message"].s != "" then body["message"].s
    else ServiceUnavailable
  }

  /** The placeholder salary animated into the charts: 75000 for a high-income verdict, else 45000. */
  function TargetSalary(highIncome: bool): (salary: int)
    ensures salary == 75000 || salary == 45000
    ensures salary > 50000 <==> highIncome
  {
    if highIncome then 75000 else 45000
  }

  /** The reply handling: a non-2xx status shows the body's message, a 2xx shows `prediction > 0.5`. */
  function HandleReply(d: Delivery): (v: View)
    ensures d.NetworkFailure? ==> v == ShowError(d.reason)
    ensures d.Delivered? && d.response.Predicted? ==> (v.ShowResult? && (v.highIncome <==> d.response.prediction >= 1))
  {
    match d
    case NetworkFailure(reason) => ShowError(reason)
    case Delivered(r) =>
      if !(200 <= Backend.Status(r) <= 299) then ShowError(FailureText(Backend.ErrorJson(r.error)))
      else ShowResult(r.prediction as real > 0.5)
  }

  /**
   * The page never shows the backend's error text: the handler writes it under "error",
   * the page reads "message", so every failed request reads "Prediction service unavailable".
   */
  lemma BackendErrorsLookGeneric(data: Backend.Json, lib: Backend.Library)
    ensures Backend.Predict(data, lib).Failed? ==> HandleReply(Delivered(Backend.Predict(data, lib))) == ShowError(ServiceUnavailable)
  {
  }

  /** The three charts of the page. */
  datatype Page = Page(salary: Chart, age: Chart, education: Chart)

  predicate PageWellFormed(p: Page) {
    WellFormed(p.salary) && WellFormed(p.age) && WellFormed(p.education)
  }

  /** The page as first drawn. */
  const InitialPage: Page := Page(SalaryChart, AgeChart, EducationChart)

  /** Ticks due so far on each of the three independent animation timers. */
  datatype Ticks = Ticks(department: nat, age: nat, education: nat)

  /** The three chart updates issued after a successful reply, each `ticks` into its animation. */
  function ApplyResult(page: Page, record: FormRecord, highIncome: bool, ticks: Ticks): (p: Page)
    requires PageWellFormed(page) && IsFormRecord(record)
    ensures PageWellFormed(p)
    ensures p.salary.labels == page.salary.labels && p.age.labels == page.age.labels
    ensures p.education.labels == page.education.labels
    ensures forall j :: 0 <= j < |page.age.data| && page.age.labels[j] != AgeBands.AgeGroup(record["age"].n) ==> p.age.data[j] == page.age.data[j]
    ensures forall j :: 0 <= j < |page.education.data| && page.education.labels[j] != EducationLevels.EducationLevel(record["education"].s) ==> p.education.data[j] == page.education.data[j]
    ensures forall j :: 0 <= j < |page.salary.data| && !Departments.Matches(page.salary.labels[j], record["occupation"].s) ==> p.salary.data[j] == page.salary.data[j]
    ensures var i := Departments.FindDepartment(page.salary.labels, record["occupation"].s);
      && (forall j :: 0 <= j < |page.salary.data| && j != i ==> p.salary.data[j] == page.salary.data[j])
      && (i >= 0 ==> p.salary.data[i] == Animator.After(Animator.Start(page.salary.data[i], TargetSalary(highIncome)), ticks.department).current)
    ensures var i := IndexOf(page.age.labels, AgeBands.AgeGroup(record["age"].n));
      && (forall j :: 0 <= j < |page.age.data| && j != i ==> p.age.data[j] == page.age.data[j])
      && (i >= 0 ==> p.age.data[i] == Animator.After(Animator.Start(page.age.data[i], TargetSalary(highIncome)), ticks.age).current)
    ensures var i := IndexOf(page.education.labels, EducationLevels.EducationLevel(record["education"].s));
      && (forall j :: 0 <= j < |page.education.data| && j != i ==> p.education.data[j] == page.education.data[j])
      && (i >= 0 ==> p.education.data[i] == Animator.After(Animator.Start(page.education.data[i], TargetSalary(highIncome)), ticks.education).current)
  {
    assert "age" in FormFields && "education" in FormFields && "occupation" in FormFields;
    var salary := TargetSalary(highIncome);
    Page(
      UpdateDepartment(page.salary, record["occupation"].s, salary, ticks.department),
      UpdateAge(page.age, record["age"].n, salary, ticks.age),
      UpdateEducation(page.education, record["education"].s, salary, ticks.education))
  }

  /** One submission: what the result area shows and the page after it. */
  datatype Outcome = Outcome(view: View, page: Page)

  /**
   * The submit handler: validation first; only a valid record is sent (`reply` stands for the
   * network round trip); only a high- or low-income result touches the charts.
   */
  function SubmitForm(page: Page, elements: map<string, string>, parseInt: string -> Option<int>,
                      reply: FormRecord -> Delivery, ticks: Ticks): (o: Outcome)
    requires PageWellFormed(page)
    ensures PageWellFormed(o.page)
    ensures Submit(elements, parseInt).Err? ==> o == Outcome(ShowError(Submit(elements, parseInt).message), page)
    ensures o.view.ShowError? ==> o.page == page
    ensures Submit(elements, parseInt).Ok? ==> o.view == HandleReply(reply(Submit(elements, parseInt).value))
    ensures Submit(elements, parseInt).Ok? && o.view.ShowResult? ==>
      o.page == ApplyResult(page, Submit(elements, parseInt).value, o.view.highIncome, ticks)
  {
    match Submit(elements, parseInt)
    case Err(message) => Outcome(ShowError(message), page)
    case Ok(record) =>
      match HandleReply(reply(record))
      case ShowError(message) => Outcome(ShowError(message), page)
      case ShowResult(high) => Outcome(ShowResult(high), ApplyResult(page, record, high, ticks))
  }

  /**
   * A valid form answered with a verdict: the verdict shown is `prediction > 0.5`, and the
   * three charts animate toward 75000 for a high-income verdict and 45000 otherwise.
   */
  lemma PredictedReplyUpdatesCharts(page: Page, elements: map<string, string>, parseInt: string -> Option<int>,
                                    reply: FormRecord -> Delivery, ticks: Ticks, prediction: int)
    requires PageWellFormed(page)
    requires Submit(elements, parseInt).Ok?
    requires reply(Submit(elements, parseInt).value) == Delivered(Backend.Predicted(prediction))
    ensures SubmitForm(page, elements, parseInt, reply, ticks).view == ShowResult(prediction >= 1)
    ensures SubmitForm(page, elements, parseInt, reply, ticks).page ==
      ApplyResult(page, Submit(elements, parseInt).value, prediction >= 1, ticks)
  {
  }

  /** A submission that fails validation sends nothing: its outcome does not depend on the network at all. */
  lemma InvalidFormSendsNothing(page: Page, elements: map<string, string>, parseInt: string -> Option<int>,
                                reply1: FormRecord -> Delivery, reply2: FormRecord -> Delivery, ticks: Ticks)
    requires PageWellFormed(page)
    requires Submit(elements, parseInt).Err?
    ensures SubmitForm(page, elements, parseInt, reply1, ticks) == SubmitForm(page, elements, parseInt, reply2, ticks)
    ensures SubmitForm(page, elements, parseInt, reply1, ticks).page == page
  {
  }

  /** The JSON encoding of one field value. */
  function FieldJson(v: FieldValue): (j: Backend.Json)
    ensures j.JNum? <==> v.Num?
    ensures j.JNum? ==> j.n == v.n
    ensures j.JStr? <==> v.Str?
    ensures j.JStr? ==> j.s == v.s
    ensures Backend.Truthy(j) <==> !Falsy(v)
  {
    match v
    case Num(n) => Backend.JNum(n)
    case Str(s) => Backend.JStr(s)
  }

  /**
   * The page's falsiness test and the handler's truthiness test agree on every field value:
   * a value the form would report missing is exactly one Python treats as false.
   */
  lemma FalsyIffNotTruthy(v: FieldValue)
    ensures Falsy(v) <==> !Backend.Truthy(FieldJson(v))
  {
  }

  /** The JSON body `JSON.stringify(formData)` sends. */
  function ToJson(record: FormRecord): (j: Backend.Json)
    ensures j.JObj? && j.fields.Keys == record.Keys
    ensures forall k :: k in record ==> j.fields[k] == FieldJson(record[k])
  {
    Backend.JObj(map k | k in record :: FieldJson(record[k]))
  }

  /** The page sends exactly the keys the handler reads, so a form body is never refused as empty or for a missing key. */
  lemma FormBodyHasEveryKey(record: FormRecord)
    requires IsFormRecord(record)
    ensures FormFields == Backend.InputKeys
    ensures Backend.Truthy(ToJson(record))
    ensures forall k :: k in Backend.InputKeys ==> k in ToJson(record).fields
  {
    assert "age" in record;
    assert |ToJson(record).fields| > 0;
  }

  /**
   * Of the occupations the backend knows, only "Sales" matches a department label: every
   * other one is longer than every label, so its chart update leaves the chart unchanged.
   */
  lemma OnlySalesMatchesADepartment(occupation: string)
    requires "occupation" in Backend.CategoryTable && occupation in Backend.CategoryTable["occupation"]
    ensures occupation == "Sales" ==> Departments.FindDepartment(Departments.DepartmentLabels, occupation) == 3
    ensures occupation != "Sales" ==> Departments.FindDepartment(Departments.DepartmentLabels, occupation) == -1
  {
    if occupation == "Sales" {
      Departments.SalesSpellings(occupation);
    } else {
      assert |occupation| >= 12;
      Departments.TooLongMatchesNothing(Departments.DepartmentLabels, occupation);
    }
  }

  /**
   * The chart level of each education the backend knows: five hit their own level, and the
   * other eleven (from "Preschool" to "Prof-school") all fall through to "Bachelor".
   */
  lemma KnownEducationLevels(education: string)
    requires "education" in Backend.CategoryTable && education in Backend.CategoryTable["education"]
    ensures education == "HS-grad" ==> EducationLevels.EducationLevel(education) == "High School"
    ensures education == "Some-college" ==> EducationLevels.EducationLevel(education) == "Some College"
    ensures education == "Bachelors" ==> EducationLevels.EducationLevel(education) == "Bachelor"
    ensures education == "Masters" ==> EducationLevels.EducationLevel(education) == "Master"
    ensures education == "Doctorate" ==> EducationLevels.EducationLevel(education) == "Doctorate"
    ensures education !in ["HS-grad", "Some-college", "Bachelors", "Masters", "Doctorate"] ==>
      EducationLevels.EducationLevel(education) == "Bachelor"
  {
    if education == "HS-grad" {
      assert Includes(education, "HS") by { assert StartsWith(education, "HS"); }
    } else if education == "Some-college" {
      EducationLevels.SomeCollegeLevel(education);
    } else if education == "Masters" {
      EducationLevels.MastersLevel(education);
    } else if education == "Bachelors" {
      BachPrefix(education);
    } else if education == "Doctorate" {
      DocPrefix(education);
    } else {
      UnmatchedFallThrough(education);
    }
  }

  /** A string starting with "Bach" and free of the letters of the two earlier tests is a Bachelor. */
  lemma BachPrefix(e: string)
    requires StartsWith(e, "Bach") && 'H' !in e && 'S' !in e
    ensures EducationLevels.EducationLevel(e) == "Bachelor"
  {
    EducationLevels.Lacks(e, "HS");
    EducationLevels.Lacks(e, "High");
    EducationLevels.Lacks(e, "Some");
  }

  /** A string starting with "Doc" and free of the letters of the four earlier tests is a Doctorate. */
  lemma DocPrefix(e: string)
    requires StartsWith(e, "Doc") && 'H' !in e && 'S' !in e && 'B' !in e && 'M' !in e
    ensures EducationLevels.EducationLevel(e) == "Doctorate"
  {
    EducationLevels.Lacks(e, "HS");
    EducationLevels.Lacks(e, "High");
    EducationLevels.Lacks(e, "Some");
    EducationLevels.Lacks(e, "Bach");
    EducationLevels.Lacks(e, "Master");
  }

  /** The known educations that contain none of the chain's patterns fall through to the default. */
  lemma UnmatchedFallThrough(education: string)
    requires || education == "11th" || education == "Prof-school" || education == "Assoc-acdm" || education == "Assoc-voc"
      || education == "9th" || education == "7th-8th" || education == "12th" || education == "1st-4th"
      || education == "10th" || education == "5th-6th" || education == "Preschool"
    ensures EducationLevels.EducationLevel(education) == "Bachelor"
  {
    EducationLevels.FallsThrough(education);
  }

  /**
   * On a fresh page, a low-income verdict for anyone under 26 starts an age-chart animation
   * that never ends: the band already holds 45000, so its cell counts down forever.
   */
  lemma FreshPageYoungLowIncomeNeverSettles(record: FormRecord, ticks: Ticks)
    requires IsFormRecord(record) && record["age"].n < 26
    ensures ApplyResult(InitialPage, record, false, ticks).age.data[0] == 45000 - ticks.age
    ensures Animator.After(Animator.Start(InitialPage.age.data[0], TargetSalary(false)), ticks.age).running
  {
    YoungLowIncomeNeverSettles(record["age"].n, ticks.age);
  }
}

=== FILE: departments.dfy ===
/** The department lookup of `updateDepartmentSalary` in static/script.js. */
module Departments {
  import opened Text

  /** The x-axis labels of the salary-by-department chart. */
  const DepartmentLabels: seq<string> := ["IT", "HR", "Finance", "Sales", "Engineering", "Admin", "Marketing"]

  /** The `findIndex` callback: the lowercased label contains the lowercased occupation. */
  predicate Matches(name: string, occupation: string): (m: bool)
    ensures occupation == "" ==> m
    ensures m ==> |occupation| <= |name|
  {
    Includes(Lower(name), Lower(occupation))
  }

  /** The test ignores the case of both sides: lowercasing either first changes nothing. */
  lemma MatchesIgnoresCase(name: string, occupation: string)
    ensures Matches(Lower(name), occupation) == Matches(name, occupation)
    ensures Matches(name, Lower(occupation)) == Matches(name, occupation)
  {
    LowerIdempotent(name);
    LowerIdempotent(occupation);
  }

  /** `labels.findIndex(...)` from position `from` on: the first matching position, or -1. */
  function FindFrom(labels: seq<string>, occupation: string, from: nat): (r: int)
    requires from <= |labels|
    ensures r == -1 || from <= r < |labels|
    ensures r == -1 <==> forall i :: from <= i < |labels| ==> !Matches(labels[i], occupation)
    ensures r >= 0 ==> Matches(labels[r], occupation)
    ensures r >= 0 ==> forall j :: from <= j < r ==> !Matches(labels[j], occupation)
    decreases |labels| - from
  {
    if from == |labels| then -1
    else if Matches(labels[from], occupation) then from
    else FindFrom(labels, occupation, from + 1)
  }

  /** The department index for an occupation: the first label that matches, or -1 when none does. */
  function FindDepartment(labels: seq<string>, occupation: string): (r: int)
    ensures -1 <= r < |labels|
    ensures r == -1 <==> forall i :: 0 <= i < |labels| ==> !Matches(labels[i], occupation)
    ensures r >= 0 ==> Matches(labels[r], occupation)
    ensures r >= 0 ==> forall j :: 0 <= j < r ==> !Matches(labels[j], occupation)
  {
    FindFrom(labels, occupation, 0)
  }

  /** An occupation longer than every label matches none of them. */
  lemma TooLongMatchesNothing(labels: seq<string>, occupation: string)
    requires forall i :: 0 <= i < |labels| ==> |labels[i]| < |occupation|
    ensures FindDepartment(labels, occupation) == -1
  {
  }

  /** Matching ignores ASCII case on both sides: "sales" and "SALES" select the Sales column. */
  lemma SalesSpellings(occupation: string)
    requires occupation == "Sales" || occupation == "sales" || occupation == "SALES"
    ensures FindDepartment(DepartmentLabels, occupation) == 3
  {
    var lowered := Lower(occupation);
    assert lowered[0] == 's' && lowered[1] == 'a' && lowered[2] == 'l' && lowered[3] == 'e' && lowered[4] == 's';
    assert lowered == "sales";
    var sales := Lower(DepartmentLabels[3]);
    assert sales[0] == 's' && sales[1] == 'a' && sales[2] == 'l' && sales[3] == 'e' && sales[4] == 's';
    assert sales == "sales";
    assert StartsWith(sales, lowered);
    forall j | 0 <= j < 3
      ensures !Matches(DepartmentLabels[j], occupation)
    {
      if j == 2 && Matches(DepartmentLabels[j], occupation) {
        IncludesFirstChar(Lower(DepartmentLabels[j]), lowered);
      }
    }
    assert Matches(DepartmentLabels[3], occupation);
  }

  /** Examples: three spellings of "Sales" all select the Sales column. */
  lemma SalesExamples()
    ensures FindDepartment(DepartmentLabels, "Sales") == 3
    ensures FindDepartment(DepartmentLabels, "sales") == 3
    ensures FindDepartment(DepartmentLabels, "SALES") == 3
  {
    SalesSpellings("Sales");
    SalesSpellings("sales");
    SalesSpellings("SALES");
  }
}

=== FILE: education_levels.dfy ===
/** The education bucketing of `updateEducationSalary` in static/script.js. */
module EducationLevels {
  import opened Text

  /** The x-axis labels of the education chart. */
  const EducationLabels: seq<string> := ["High School", "Some College", "Bachelor", "Master", "Doctorate"]

  /** The level chosen when no substring test fires. */
  const DefaultLevel: string := "Bachelor"

  /** The if/else chain: case-sensitive substring tests, first hit wins. */
  function EducationLevel(education: string): (level: string)
    ensures level in EducationLabels
  {
    if Includes(education, "HS") || Includes(education, "High") then "High School"
    else if Includes(education, "Some") then "Some College"
    else if Includes(education, "Bach") then "Bachelor"
    else if Includes(education, "Master") then "Master"
    else if Includes(education, "Doc") then "Doctorate"
    else DefaultLevel
  }

  /** One row of the priority table: any of `patterns` selects `level`. */
  datatype Rule = Rule(patterns: seq<string>, level: string)

  /** Reference definition of the chain as a priority-ordered table. */
  const Rules: seq<Rule> := [
    Rule(["HS", "High"], "High School"),
    Rule(["Some"], "Some College"),
    Rule(["Bach"], "Bachelor"),
    Rule(["Master"], "Master"),
    Rule(["Doc"], "Doctorate")
  ]

  predicate Fires(r: Rule, education: string) {
    exists p :: p in r.patterns && Includes(education, p)
  }

  /** The first rule that fires decides the level. */
  lemma FirstFiringRuleDecides(education: string, i: int)
    requires 0 <= i < |Rules|
    requires Fires(Rules[i], education)
    requires forall j :: 0 <= j < i ==> !Fires(Rules[j], education)
    ensures EducationLevel(education) == Rules[i].level
  {
    assert Rules[0].patterns == ["HS", "High"];
    if i > 0 {
      assert !Fires(Rules[0], education);
      assert !Includes(education, "HS") && !Includes(education, "High");
    }
    if i > 1 {
      assert !Fires(Rules[1], education);
      assert !Includes(education, "Some");
    }
    if i > 2 {
      assert !Fires(Rules[2], education);
      assert !Includes(education, "Bach");
    }
    if i > 3 {
      assert !Fires(Rules[3], education);
      assert !Includes(education, "Master");
    }
  }

  /** When no rule fires the level is the default, and it is the default only then or when the Bach rule fires. */
  lemma NoRuleFiresGivesDefault(education: string)
    ensures (forall j :: 0 <= j < |Rules| ==> !Fires(Rules[j], education)) ==> EducationLevel(education) == DefaultLevel
    ensures EducationLevel(education) == DefaultLevel ==> !Fires(Rules[0], education) && !Fires(Rules[1], education)
  {
    if forall j :: 0 <= j < |Rules| ==> !Fires(Rules[j], education) {
      assert !Fires(Rules[0], education) && !Fires(Rules[1], education) && !Fires(Rules[2], education);
      assert !Fires(Rules[3], education) && !Fires(Rules[4], education);
      assert !Includes(education, "HS") && !Includes(education, "High");
    }
    if EducationLevel(education) == DefaultLevel {
      assert !Includes(education, "HS") && !Includes(education, "High");
      assert !Includes(education, "Some");
    }
  }

  /** `education` has no occurrence of `p` because it lacks `p`'s first character. */
  lemma Lacks(education: string, p: string)
    requires |p| > 0 && p[0] !in education
    ensures !Includes(education, p)
  {
    if Includes(education, p) {
      IncludesFirstChar(education, p);
    }
  }

  /** A value equal to "Masters" passes the first three tests and hits the Master rule. */
  lemma MastersLevel(education: string)
    requires education == "Masters"
    ensures EducationLevel(education) == "Master"
  {
    Lacks(education, "HS");
    Lacks(education, "High");
    Lacks(education, "Some");
    Lacks(education, "Bach");
  }

  /** A value equal to "Some-college" hits the Some rule. */
  lemma SomeCollegeLevel(education: string)
    requires education == "Some-college"
    ensures EducationLevel(education) == "Some College"
  {
    Lacks(education, "HS");
    Lacks(education, "High");
  }

  /** `education` contains none of the six patterns, so it falls through to the default. */
  lemma FallsThrough(education: string)
    requires 'H' !in education && 'S' !in education && 'B' !in education
    requires 'M' !in education && 'D' !in education
    ensures EducationLevel(education) == DefaultLevel
  {
    Lacks(education, "HS");
    Lacks(education, "High");
    Lacks(education, "Some");
    Lacks(education, "Bach");
    Lacks(education, "Master");
    Lacks(education, "Doc");
  }

  /** A value equal to "Prof-school" or "Unknown-value" has none of the patterns' capitals and takes the default. */
  lemma ProfSchoolOrUnknownLevel(education: string)
    requires education == "Prof-school" || education == "Unknown-value"
    ensures EducationLevel(education) == "Bachelor"
  {
    FallsThrough(education);
  }

  /** Examples: two values with their own level, and two (a professional degree, an unknown value) that take the default. */
  lemma EducationExamples()
    ensures EducationLevel("Masters") == "Master"
    ensures EducationLevel("Some-college") == "Some College"
    ensures EducationLevel("Prof-school") == "Bachelor"
    ensures EducationLevel("Unknown-value") == "Bachelor"
  {
    MastersLevel("Masters");
    SomeCollegeLevel("Some-college");
    ProfSchoolOrUnknownLevel("Prof-school");
    ProfSchoolOrUnknownLevel("Unknown-value");
  }
}

=== FILE: form.dfy ===
/**
 * The form-submission front half of static/script.js: reading the form fields into a
 * record and refusing to send it while a required field is empty.
 */
module Form {
  import opened Base
  import opened Text

  /** A field of the record sent to the backend: a parsed number or the raw text. */
  datatype FieldValue = Num(n: int) | Str(s: string)

  /**
   * JavaScript falsiness of a field value, the test behind `!formData[field]`: a number is
   * falsy when it is zero, a string when it has no characters. (NaN cannot occur: the
   * numeric fields go through `|| 0`.)
   */
  predicate Falsy(v: FieldValue): (f: bool)
    ensures f <==> v in {Num(0), Str("")}
  {
    match v
    case Num(n) => n == 0
    case Str(s) => |s| == 0
  }

  /** The fields in the order the record literal reads them. */
  const FormFields: seq<string> := ["age", "workclass", "education", "marital-status", "occupation",
    "relationship", "race", "gender", "capital-gain", "capital-loss", "hours-per-week"]

  /** The fields read through `parseInt(...) || 0`. */
  const NumericFields: set<string> := {"age", "capital-gain", "capital-loss", "hours-per-week"}

  /** The fields that must be truthy before anything is sent, in reporting order. */
  const RequiredFields: seq<string> := ["age", "workclass", "education", "occupation", "hours-per-week"]

  /** The record sent to the backend, keyed by field name. */
  type FormRecord = map<string, FieldValue>

  /** A record as the form produces it: every field present, numbers exactly in the numeric fields. */
  predicate IsFormRecord(r: FormRecord) {
    && (forall f :: f in FormFields ==> f in r)
    && (forall f :: f in r ==> f in FormFields)
    && (forall f :: f in r ==> (r[f].Num? <==> f in NumericFields))
  }

  /** `parseInt(text) || 0`, with `parseInt` giving `None` for `NaN`: absent and zero both become 0. */
  function NumberOrZero(parsed: Option<int>): (n: int)
    ensures n == 0 <==> parsed == None || parsed == Some(0)
    ensures parsed.Some? ==> n == parsed.value
  {
    match parsed
    case None => 0
    case Some(v) => v
  }

  /** The record entry built from field `name`'s element text. */
  function FieldOf(name: string, text: string, parseInt: string -> Option<int>): (v: FieldValue)
    ensures v.Num? <==> name in NumericFields
    ensures v.Num? ==> (Falsy(v) <==> parseInt(text) == None || parseInt(text) == Some(0))
    ensures v.Num? ==> v.n == (if parseInt(text).Some? then parseInt(text).value else 0)
    ensures v.Str? ==> v.s == text && (Falsy(v) <==> text == "")
  {
    if name in NumericFields then Num(NumberOrZero(parseInt(text))) else Str(text)
  }

  /**
   * `getValue` over `fields`, in order: the first field whose element is absent throws
   * "Missing field: <id>"; otherwise every field is read.
   */
  function CollectFrom(fields: seq<string>, elements: map<string, string>, parseInt: string -> Option<int>): (r: Result<FormRecord>)
    ensures r.Err? <==> exists i :: 0 <= i < |fields| && fields[i] !in elements
    ensures r.Err? ==> exists i :: (0 <= i < |fields| && fields[i] !in elements
      && (forall j :: 0 <= j < i ==> fields[j] in elements)
      && r.message == "Missing field: " + fields[i])
    ensures r.Ok? ==> forall f :: f in r.value <==> f in fields
    ensures r.Ok? ==> forall f :: f in r.value ==> f in elements && r.value[f] == FieldOf(f, elements[f], parseInt)
  {
    if |fields| == 0 then Ok(map[])
    else if fields[0] !in elements then Err("Missing field: " + fields[0])
    else
      var rest := CollectFrom(fields[1..], elements, parseInt);
      if rest.Err? then
        assert forall i :: 0 <= i < |fields| - 1 ==> fields[1..][i] == fields[i + 1];
        rest
      else
        Ok(rest.value[fields[0] := FieldOf(fields[0], elements[fields[0]], parseInt)])
  }

  /** The record literal of the submit handler, built from the form's elements by id. */
  function Collect(elements: map<string, string>, parseInt: string -> Option<int>): (r: Result<FormRecord>)
    ensures r.Ok? ==> IsFormRecord(r.value)
    ensures r.Ok? <==> forall f :: f in FormFields ==> f in elements
    ensures r.Ok? ==> forall f :: f in FormFields ==> r.value[f] == FieldOf(f, elements[f], parseInt)
    ensures r.Err? ==> exists i :: (0 <= i < |FormFields| && FormFields[i] !in elements
      && (forall j :: 0 <= j < i ==> FormFields[j] in elements)
      && r.message == "Missing field: " + FormFields[i])
  {
    CollectFrom(FormFields, elements, parseInt)
  }

  /** `r` appears inside `s` in the same relative order, possibly with gaps. */
  ghost predicate SubsequenceOf(r: seq<string>, s: seq<string>)
    decreases |s|
  {
    |r| == 0 || (|s| > 0 && ((r[0] == s[0] && SubsequenceOf(r[1..], s[1..])) || SubsequenceOf(r, s[1..])))
  }

  /** `keys.filter(field => !record[field])`. */
  function FalsyKeys(keys: seq<string>, record: FormRecord): (r: seq<string>)
    requires forall k :: k in keys ==> k in record
    ensures forall k :: k in r <==> k in keys && Falsy(record[k])
    ensures SubsequenceOf(r, keys)
  {
    if |keys| == 0 then []
    else
      var rest := FalsyKeys(keys[1..], record);
      if Falsy(record[keys[0]]) then
        assert ([keys[0]] + rest)[1..] == rest;
        [keys[0]] + rest
      else
        rest
  }

  /** Like `filter`, the result keeps every occurrence of a falsy key, and no occurrence of a truthy one. */
  lemma {:induction false} FalsyKeysCounts(keys: seq<string>, record: FormRecord)
    requires forall k :: k in keys ==> k in record
    ensures forall k :: multiset(FalsyKeys(keys, record))[k] == if k in keys && Falsy(record[k]) then multiset(keys)[k] else 0
    decreases |keys|
  {
    if |keys| > 0 {
      assert keys == [keys[0]] + keys[1..];
      FalsyKeysCounts(keys[1..], record);
    }
  }

  /** The required fields that are falsy, in the order they are listed. */
  function MissingFields(record: FormRecord): (missing: seq<string>)
    requires IsFormRecord(record)
    ensures forall f :: f in missing <==> f in RequiredFields && Falsy(record[f])
    ensures SubsequenceOf(missing, RequiredFields)
  {
    FalsyKeys(RequiredFields, record)
  }

  /** The validation step: any falsy required field aborts with "Please fill in: " and the names joined by ", ". */
  function Validate(record: FormRecord): (r: Result<FormRecord>)
    requires IsFormRecord(record)
    ensures r.Ok? <==> forall f :: f in RequiredFields ==> !Falsy(record[f])
    ensures r.Ok? ==> r.value == record
    ensures r.Err? ==> r.message == "Please fill in: " + Join(MissingFields(record), ", ")
  {
    var missing := MissingFields(record);
    if |missing| > 0 then
      assert missing[0] in missing;
      Err("Please fill in: " + Join(missing, ", "))
    else
      Ok(record)
  }

  /**
   * Everything the submit handler does before the network call: `Ok(record)` is the body
   * that would be POSTed; `Err(message)` is shown instead and no request is made.
   */
  function Submit(elements: map<string, string>, parseInt: string -> Option<int>): (r: Result<FormRecord>)
    ensures r.Ok? ==> IsFormRecord(r.value)
    ensures r.Ok? ==> forall f :: f in RequiredFields ==> !Falsy(r.value[f])
    ensures r.Ok? <==> ((forall f :: f in FormFields ==> f in elements)
      && (forall f :: f in RequiredFields ==> !Falsy(FieldOf(f, elements[f], parseInt))))
    ensures r.Ok? ==> forall f :: f in FormFields ==> r.value[f] == FieldOf(f, elements[f], parseInt)
    ensures Collect(elements, parseInt).Err? ==> exists i :: (0 <= i < |FormFields| && FormFields[i] !in elements
      && (forall j :: 0 <= j < i ==> FormFields[j] in elements)
      && r == Err("Missing field: " + FormFields[i]))
    ensures Collect(elements, parseInt).Ok? && r.Err? ==>
      r.message == "Please fill in: " + Join(MissingFields(Collect(elements, parseInt).value), ", ")
  {
    var collected := Collect(elements, parseInt);
    if collected.Err? then collected else Validate(collected.value)
  }

  /** A numeric required field whose text does not parse, or parses to 0, is reported as missing. */
  lemma UnparsableNumberIsMissing(record: FormRecord, elements: map<string, string>, parseInt: string -> Option<int>, f: string)
    requires Collect(elements, parseInt) == Ok(record)
    requires f in RequiredFields && f in NumericFields
    requires parseInt(elements[f]) == None || parseInt(elements[f]) == Some(0)
    ensures f in MissingFields(record)
    ensures Submit(elements, parseInt).Err?
  {
  }

  /** When every key is falsy the filter keeps them all. */
  lemma {:induction false} AllFalsyKept(keys: seq<string>, record: FormRecord)
    requires forall k :: k in keys ==> k in record && Falsy(record[k])
    ensures FalsyKeys(keys, record) == keys
  {
    if |keys| > 0 {
      AllFalsyKept(keys[1..], record);
    }
  }

  /** With every element present but every required one blank, all five names are reported, in their listed order. */
  lemma AllBlankMessage(elements: map<string, string>, parseInt: string -> Option<int>)
    requires forall f :: f in FormFields ==> f in elements
    requires forall f :: f in RequiredFields ==> elements[f] == ""
    requires parseInt("") == None
    ensures Submit(elements, parseInt) == Err("Please fill in: " + Join(RequiredFields, ", "))
  {
    var collected := Collect(elements, parseInt);
    assert collected.Ok?;
    var record := collected.value;
    assert forall f :: f in RequiredFields ==> Falsy(record[f]);
    AllFalsyKept(RequiredFields, record);
    assert MissingFields(record) == RequiredFields;
    assert Submit(elements, parseInt) == Validate(record);
  }
}

=== FILE: text.dfy ===
/** The string operations the dashboard script relies on, with JavaScript semantics. */
module Text {

  /** `s.startsWith(p)`. */
  predicate StartsWith(s: string, p: string) {
    |p| <= |s| && s[..|p|] == p
  }

  /** `s.includes(p)`: `p` starts at some position of `s` (the empty string is in every string). */
  predicate Includes(s: string, p: string)
    ensures |p| == 0 ==> Includes(s, p)
    ensures Includes(s, p) ==> |p| <= |s|
    decreases |s|
  {
    StartsWith(s, p) || (|s| > 0 && Includes(s[1..], p))
  }

  /** Reference definition of a substring occurrence at index `i`. */
  ghost predicate OccursAt(s: string, p: string, i: int) {
    0 <= i && i + |p| <= |s| && s[i..i + |p|] == p
  }

  /** `Includes` agrees with the positional definition, in both directions. */
  lemma {:induction false} IncludesIffOccurs(s: string, p: string)
    ensures Includes(s, p) <==> exists i :: OccursAt(s, p, i)
    decreases |s|
  {
    if Includes(s, p) {
      if StartsWith(s, p) {
        assert OccursAt(s, p, 0);
      } else {
        IncludesIffOccurs(s[1..], p);
        var i :| OccursAt(s[1..], p, i);
        assert s[1..][i..i + |p|] == s[i + 1..i + 1 + |p|];
        assert OccursAt(s, p, i + 1);
      }
    } else {
      forall i | 0 <= i && i + |p| <= |s|
        ensures !OccursAt(s, p, i)
      {
        if i == 0 {
          assert !StartsWith(s, p);
        } else {
          IncludesIffOccurs(s[1..], p);
          assert s[1..][i - 1..i - 1 + |p|] == s[i..i + |p|];
          assert !OccursAt(s[1..], p, i - 1);
        }
      }
    }
  }

  /** An occurrence of a non-empty `p` puts its first character into `s`. */
  lemma {:induction false} IncludesFirstChar(s: string, p: string)
    requires |p| > 0 && Includes(s, p)
    ensures p[0] in s
  {
    IncludesIffOccurs(s, p);
    var i :| OccursAt(s, p, i);
    assert s[i] == s[i..i + |p|][0];
  }

  /** `toLowerCase` on one character; only the ASCII letters `A`..`Z` are folded. */
  function LowerChar(c: char): char {
    if 'A' <= c <= 'Z' then (c as int + 32) as char else c
  }

  /** `s.toLowerCase()`, character by character. */
  function Lower(s: string): (r: string)
    ensures |r| == |s|
    ensures forall i :: 0 <= i < |r| ==> !('A' <= r[i] <= 'Z')
    ensures forall i :: 0 <= i < |s| && !('A' <= s[i] <= 'Z') ==> r[i] == s[i]
    ensures forall i :: 0 <= i < |s| && 'A' <= s[i] <= 'Z' ==> r[i] as int == s[i] as int + 32
  {
    seq(|s|, i requires 0 <= i < |s| => LowerChar(s[i]))
  }

  /** Lowercasing twice is lowercasing once. */
  lemma LowerIdempotent(s: string)
    ensures Lower(Lower(s)) == Lower(s)
  {
  }

  /** `xs.indexOf(x)`: the first position holding `x`, or -1. */
  function IndexOf(xs: seq<string>, x: string): (r: int)
    ensures -1 <= r < |xs|
    ensures r == -1 <==> x !in xs
    ensures r >= 0 ==> xs[r] == x && x !in xs[..r]
  {
    if |xs| == 0 then -1
    else if xs[0] == x then 0
    else
      var k := IndexOf(xs[1..], x);
      assert xs[1..] == xs[1..][..|xs| - 1];
      if k == -1 then -1
      else
        assert xs[..k + 1] == [xs[0]] + xs[1..][..k];
        k + 1
  }

  /** The summed lengths of `xs`. */
  function TotalLength(xs: seq<string>): nat {
    if |xs| == 0 then 0 else |xs[0]| + TotalLength(xs[1..])
  }

  /** `xs.join(sep)`: the pieces in order with one separator between neighbours, and nothing else. */
  function Join(xs: seq<string>, sep: string): (r: string)
    ensures |xs| > 0 ==> |r| == TotalLength(xs) + (|xs| - 1) * |sep|
    ensures |xs| == 0 ==> r == ""
    ensures |xs| > 0 ==> StartsWith(r, xs[0])
  {
    if |xs| == 0 then ""
    else if |xs| == 1 then xs[0]
    else xs[0] + sep + Join(xs[1..], sep)
  }

  /** Where piece `i` starts in `Join(xs, sep)`: after the earlier pieces, each followed by one separator. */
  function Offset(xs: seq<string>, sep: string, i: nat): nat
    requires i <= |xs|
  {
    TotalLength(xs[..i]) + i * |sep|
  }

  /** Dropping the first piece moves every later offset back by that piece and one separator. */
  lemma OffsetShift(xs: seq<string>, sep: string, i: nat)
    requires 1 <= i <= |xs|
    ensures Offset(xs, sep, i) == |xs[0]| + |sep| + Offset(xs[1..], sep, i - 1)
  {
    assert xs[..i][1..] == xs[1..][..i - 1];
  }

  /** Each piece advances the next offset by its own length and one separator. */
  lemma {:induction false} OffsetStep(xs: seq<string>, sep: string, i: nat)
    requires i < |xs|
    ensures Offset(xs, sep, i + 1) == Offset(xs, sep, i) + |xs[i]| + |sep|
    decreases i
  {
    if i == 0 {
      assert xs[..1] == [xs[0]] && xs[..0] == [];
      assert TotalLength([xs[0]]) == |xs[0]| + TotalLength([xs[0]][1..]);
    } else {
      OffsetShift(xs, sep, i + 1);
      OffsetShift(xs, sep, i);
      OffsetStep(xs[1..], sep, i - 1);
    }
  }

  /** Piece `i` of `xs.join(sep)` sits at `Offset(xs, sep, i)`. */
  lemma {:induction false} JoinPiece(xs: seq<string>, sep: string, i: nat)
    requires i < |xs|
    ensures Offset(xs, sep, i) + |xs[i]| <= |Join(xs, sep)|
    ensures Join(xs, sep)[Offset(xs, sep, i)..Offset(xs, sep, i) + |xs[i]|] == xs[i]
    decreases i
  {
    var r := Join(xs, sep);
    if i == 0 {
      assert xs[..0] == [];
      if |xs| > 1 {
        assert r == xs[0] + (sep + Join(xs[1..], sep));
      }
    } else {
      var rest := Join(xs[1..], sep);
      var h := |xs[0]| + |sep|;
      assert r == (xs[0] + sep) + rest;
      JoinPiece(xs[1..], sep, i - 1);
      OffsetShift(xs, sep, i);
      var o := Offset(xs[1..], sep, i - 1);
      assert r[h + o..h + o + |xs[i]|] == rest[o..o + |xs[i]|];
    }
  }

  /** Exactly one separator follows piece `i` when another piece comes after it. */
  lemma {:induction false} JoinGap(xs: seq<string>, sep: string, i: nat)
    requires i < |xs| - 1
    ensures Offset(xs, sep, i) + |xs[i]| + |sep| <= |Join(xs, sep)|
    ensures Join(xs, sep)[Offset(xs, sep, i) + |xs[i]|..Offset(xs, sep, i) + |xs[i]| + |sep|] == sep
    decreases i
  {
    var r := Join(xs, sep);
    var rest := Join(xs[1..], sep);
    var h := |xs[0]| + |sep|;
    assert r == (xs[0] + sep) + rest;
    if i == 0 {
      assert xs[..0] == [];
    } else {
      JoinGap(xs[1..], sep, i - 1);
      OffsetShift(xs, sep, i);
      var o := Offset(xs[1..], sep, i - 1) + |xs[i]|;
      assert r[h + o..h + o + |sep|] == rest[o..o + |sep|];
    }
  }

  /**
   * The layout of `xs.join(sep)`: piece `i` sits at `Offset(xs, sep, i)`, exactly one
   * separator follows every piece but the last, and the next piece starts right after it.
   */
  lemma JoinLayout(xs: seq<string>, sep: string)
    ensures forall i :: 0 <= i < |xs| ==>
      Offset(xs, sep, i) + |xs[i]| <= |Join(xs, sep)|
      && Join(xs, sep)[Offset(xs, sep, i)..Offset(xs, sep, i) + |xs[i]|] == xs[i]
    ensures forall i :: 0 <= i < |xs| - 1 ==>
      Offset(xs, sep, i) + |xs[i]| + |sep| <= |Join(xs, sep)|
      && Join(xs, sep)[Offset(xs, sep, i) + |xs[i]|..Offset(xs, sep, i) + |xs[i]| + |sep|] == sep
    ensures forall i :: 0 <= i < |xs| - 1 ==> Offset(xs, sep, i + 1) == Offset(xs, sep, i) + |xs[i]| + |sep|
  {
    forall i | 0 <= i < |xs|
      ensures Offset(xs, sep, i) + |xs[i]| <= |Join(xs, sep)|
        && Join(xs, sep)[Offset(xs, sep, i)..Offset(xs, sep, i) + |xs[i]|] == xs[i]
    {
      JoinPiece(xs, sep, i);
    }
    forall i | 0 <= i < |xs| - 1
      ensures Offset(xs, sep, i) + |xs[i]| + |sep| <= |Join(xs, sep)|
        && Join(xs, sep)[Offset(xs, sep, i) + |xs[i]|..Offset(xs, sep, i) + |xs[i]| + |sep|] == sep
        && Offset(xs, sep, i + 1) == Offset(xs, sep, i) + |xs[i]| + |sep|
    {
      JoinGap(xs, sep, i);
      OffsetStep(xs, sep, i);
    }
  }
}
